=== FILE: README.md ===
# UniTrack attendance core in Dafny

UniTrack fetches per-subject attendance counts from a university ERP,
normalises the upstream records, and classifies each subject against a
required attendance percentage. It also projects how many classes a student
must attend, or may miss. This project models the pure logic under the
browser automation and web plumbing, and proves properties of it:

- **Calculator** (`unitrack/core/calculator.py`). It puts a percentage in
  the SAFE / CRITICAL / LOW tier. It computes the integer projections
  "consecutive classes needed" and "classes that can be missed". It builds
  the per-subject analysis, the summary of a whole batch, and the priority
  list.
- **Config** (`unitrack/core/config.py`). It covers threshold resolution
  (exact subject code, then the first keyword in the subject name, then the
  default), the `is_complete` / `is_configured` predicates, and the
  `to_dict` / `from_dict` mapping, which blanks the password.
- **Backend** (`backend/app.py`). It covers `process_attendance`, the
  request checks and URL completion of `POST /api/fetch`, and the status
  code of a failed fetch.
- **Scraper** (`unitrack/core/scraper.py`). It covers `_process_attendance`,
  which reads through the configured field mappings, and
  `_looks_like_attendance`.
- **Discovery** (`unitrack/core/discovery.py`). It covers
  `_looks_like_attendance` with its 13 keys, and `discover_field_mappings`.

Shared modules:

- `Records` is the canonical subject record both normalisers build.
- `Json` holds decoded JSON values, Python truthiness, `int()`, and
  `dict.get`.
- `Text` holds ASCII case mapping, Python's whitespace `strip`, substring
  search, and decimal printing and parsing.
- `Dicts` models a Python dict as a sequence of key/value pairs. `Get`
  finds the first pair with the key. `Put` overwrites in place or appends,
  as insertion-ordered dicts do.
- `Seqs` holds first-match search, counting and filter-map.

Modelling conventions:

- Percentages and thresholds are exact `real`s.
- A raised exception that the source catches is `None`: the record is
  skipped.
- An uncaught one is an explicit `Crash` or `None` result.
- The clock, the browser, the network and the file system are outside the
  model.

Some of the code's behaviour may surprise a reader. The model follows the
code in each case:

- A custom threshold is picked in a fixed order. A non-empty subject code
  that is exactly a key wins first. Only then is a keyword looked for, and
  only in the subject *name*. A keyword is not matched against the code.
- A record whose count `int()` rejects is skipped. Its count is not taken
  as 0.
- An empty payload gives an empty list, not an error.
- `percentage` lies in 0..100 only when the counts are non-negative. The
  docstring of `calculate_status` says "(0-100)", but the code does not
  enforce that range.
- In `process_attendance`, faculty is stripped only when one of the two
  faculty keys is truthy. A non-string value there skips the record.

## Model

| member | source | states |
|---|---|---|
| Calculator.CalculateStatus | unitrack/core/calculator.py:72-90 | exactly one tier: SAFE iff percentage ≥ threshold + buffer, CRITICAL iff threshold ≤ percentage < threshold + buffer, LOW otherwise |
| Calculator.StatusTiers | unitrack/core/calculator.py:83-90 | with a non-negative buffer, LOW iff below the threshold, and a higher percentage never gets a more urgent tier |
| Calculator.ClassesNeeded | unitrack/core/calculator.py:92-121 | 0 when nothing was conducted, when the ratio already meets the threshold, or when the threshold is 100; never negative when classes were held and the threshold is at most 100 |
| Calculator.ClassesNeededIsLeast | unitrack/core/calculator.py:92-121 | below a threshold under 100, attending n more classes reaches the threshold and n − 1 do not (n > 0) |
| Calculator.ClassesCanMiss | unitrack/core/calculator.py:123-152 | 0 when nothing was conducted, when below the threshold, or when the threshold is 0; never negative when classes were held and the threshold is not negative |
| Calculator.ClassesCanMissIsMost | unitrack/core/calculator.py:123-152 | at or above a positive threshold, missing y classes keeps the threshold and missing y + 1 breaks it |
| Calculator.NeverBothPositive | unitrack/core/calculator.py:106-152 | classes needed and classes that can be missed are never both positive |
| Calculator.WorkedExamples | unitrack/core/calculator.py:92-152 | 26 of 40 at 75% needs 16 classes and is LOW; 38 of 40 may miss 10 and is SAFE |
| Calculator.EffectivePercentage | unitrack/core/calculator.py:168-175 | a given non-zero percentage is kept; a zero one with classes held is present/total·100 |
| Calculator.AnalyzeSubject | unitrack/core/calculator.py:154-203 | name, code, counts, faculty and term are copied from the input; the threshold is the one get_threshold resolves; the stored percentage is the effective one and the tier is calculate_status of it; no classes held gives both projections 0; the message is built from the tier and the projections |
| Calculator.PercentAgainstThreshold | unitrack/core/calculator.py:174-180 | the percentage reaches the threshold exactly when attended/conducted reaches threshold/100 |
| Calculator.AnalysisAgrees | unitrack/core/calculator.py:168-188 | for a consistent percentage: the stored percentage is present/total·100; LOW exactly when below the threshold, SAFE exactly when at or above threshold + buffer; a LOW subject may miss none, and needs the least number of classes that reaches the threshold (threshold < 100); a non-LOW one needs none, and may miss the most classes that keep the threshold (threshold > 0) |
| Calculator.MessageReadsBack | unitrack/core/calculator.py:182-188 | the message starts with the tier's word ("Safe!", "Critical!" or "Low!"), and the number in it reads back as classes-can-miss for SAFE/CRITICAL and classes-needed for LOW |
| Calculator.StatusCountsPartition | unitrack/core/calculator.py:229-234 | the three tier counts add up to the number of subjects |
| Calculator.AnalyzeAll | unitrack/core/calculator.py:205-251 | one analysis per subject in order; each tier count is the number of subjects in that tier, and they sum to the total; present and conducted are the sums; the overall percentage is 0 without classes; the overall tier uses the default threshold |
| Calculator.SortByPriority | unitrack/core/calculator.py:267-273 | a permutation of the input ordered LOW before CRITICAL before SAFE, then by ascending percentage |
| Calculator.SortStable | unitrack/core/calculator.py:270-273 | subjects with equal (tier, percentage) keep their relative order, as Python's sort is stable |
| Calculator.PrioritySubjects | unitrack/core/calculator.py:254-275 | at most top_n subjects (Python slice semantics, negative top_n included), drawn from the analysis, in priority order |
| Calculator.PriorityKeepsEarliest | unitrack/core/calculator.py:267-275 | of the subjects sharing a (tier, percentage) key, the list keeps the earliest in input order, as the stable sort followed by the slice does |
| Calculator.PriorityIsMostUrgent | unitrack/core/calculator.py:265-275 | no subject left out of the priority list is more urgent than one in it |
| Calculator.DefaultPriorityLength | unitrack/core/calculator.py:254 | by default the list holds five subjects, or all of them if there are fewer |
| Config.IsComplete | unitrack/core/config.py:28-34 | complete iff every selector in the list handed to `all()` (username input, password input, login button) is non-empty |
| Config.IsConfigured | unitrack/core/config.py:112-119 | configured iff the base URL, the username, the password and every login selector are non-empty; a configured configuration changes when its password is blanked |
| Config.CompletenessIgnoresTrigger | unitrack/core/config.py:28-34 | the attendance trigger does not affect completeness; the default selectors are incomplete |
| Config.FirstKeyword | unitrack/core/config.py:50-53 | the first custom entry in insertion order whose key occurs case-insensitively in the name, or none if none does |
| Config.GetThreshold | unitrack/core/config.py:44-55 | an exact non-empty code key wins; otherwise the first keyword in a non-empty name; otherwise the default; always the default or a custom value |
| Config.NoSubjectGetsDefault | unitrack/core/config.py:44-55 | with no code and no name the default threshold applies |
| Config.EarlierKeywordWins | unitrack/core/config.py:50-53 | of two matching keywords, the later one is never chosen |
| Config.NameCaseIrrelevant | unitrack/core/config.py:52 | lower-casing the subject name does not change the threshold |
| Config.DefaultFieldMappingsDistinct | unitrack/core/config.py:76-84 | the default field mappings name each canonical field once |
| Config.ToDict | unitrack/core/config.py:121-126 | the saved dict holds an empty password, and reading it back gives the configuration with only the password blanked |
| Config.ToDictHidesPassword | unitrack/core/config.py:121-126 | the saved dict does not depend on the password |
| Config.FromDict | unitrack/core/config.py:128-153 | a missing section keeps its default; inside a present section, and for the six simple fields, every key the dict carries is taken and every missing one keeps its dataclass default (75 and 10 for thresholds, "My Institution" and "#3B82F6" for the institution, the default selectors and field mappings for the ERP) |
| Config.FromEmptyDict | unitrack/core/config.py:129-153 | a dict with none of the known keys gives the default configuration (75, buffer 10, no custom rules) |
| Config.ReloadedConfigLacksPassword | unitrack/core/config.py:112-126 | a configuration saved and read back is never "configured" |
| Records.Percentage | backend/app.py:197 | 0 without classes; otherwise present/total·100, between 0 and 100 for counts within the total |
| Records.Normalised | backend/app.py:196-205 | the record carries the given counts, total = present + absent, and the derived percentage |
| Json.IntOf | backend/app.py:194 | `int()` of an integer is itself, of a string is its decimal parse, and of null, a list or an object fails |
| Json.IntOfDecimalString | backend/app.py:194 | `int()` reads back any integer written in decimal |
| Json.Probe | backend/app.py:194 | `get(first, get(second, default))`: the first key present wins, else the default |
| Text.Strip | backend/app.py:206 | the result is a slice of the input with no whitespace at either end |
| Text.RStripChar | backend/app.py:259 | a prefix of the input, ending in something other than the character, with only that character cut |
| Backend.Faculty | backend/app.py:206 | "" unless facultName or facultyName is truthy; then the stripped value of facultName, or of facultyName if facultName is absent, and the record fails if that value is not a string |
| Backend.ProcessRecord | backend/app.py:191-207 | a record is kept iff it is an object whose probed counts pass `int()` and whose faculty is readable; it then carries those counts, total = present + absent, the percentage, and the probed subject and code |
| Backend.ProcessAttendance | backend/app.py:187-212 | at most one well-formed subject per raw record, each produced from some raw record, and every raw record that normalises is in the result |
| Backend.ProcessAttendanceSingle | backend/app.py:191-212 | one raw record gives its normalised record, or nothing when the loop body raises; with the append lemma this fixes the whole output |
| Backend.ProcessAttendanceAppend | backend/app.py:191-212 | records are normalised independently and survivors keep their input order |
| Backend.PlainRecordsKept | backend/app.py:191-207 | a batch of objects with integer counts and no faculty loses no record, and each subject carries its record's counts |
| Backend.PlainRecordKept | backend/app.py:194-206 | one object with integer counts and no faculty is kept with those counts, their sum and an empty faculty |
| Backend.PaddedRecordKept | backend/app.py:194-205 | a count given as the string " 12 " is accepted as 12 |
| Backend.NullFacultySkipped | backend/app.py:206 | a null facultName next to a truthy facultyName makes `.strip()` fail, so the record is skipped |
| Backend.StrippedField | backend/app.py:251-252 | a missing field reads as ""; the read fails exactly when the value is not a string, and otherwise gives the value with surrounding whitespace stripped |
| Backend.NormalizeUrl | backend/app.py:258-263 | trailing slashes are cut and "https://" is put in front unless the URL starts with "http"; the result always starts with "http" |
| Backend.NormalizeUrlIdempotent | backend/app.py:258-263 | a URL that is not all slashes comes out without a trailing slash, and normalising it again changes nothing |
| Backend.SlashUrl | backend/app.py:255-263 | the URL "/" becomes "https://", and a second pass would cut that to "https:" |
| Backend.ValidateRequest | backend/app.py:246-263 | a falsy body gets "No data provided"; a non-object body fails; an object fails iff its URL or username is not a string; otherwise it gets the 400 "Missing required fields" answer iff the stripped URL or username is blank or the password is falsy; a request that proceeds has a non-blank username, a truthy password and a URL starting with "http" |
| Backend.ValidateRequestProceeds | backend/app.py:248-263 | an object proceeds iff URL and username are non-blank strings and the password is truthy, and the URL used is the normalised one |
| Backend.ValidateRequestMissingField | backend/app.py:251-256 | a non-empty object missing one of the three fields never proceeds, and gets "Missing required fields" whenever the URL and username it carries are strings |
| Backend.ResponseStatus | backend/app.py:269-272 | 200 iff the fetch succeeded; a failure is 401 iff its lower-cased message contains "credential", else 500 |
| Backend.CredentialErrorUnauthorized | backend/app.py:272 | "credential" in any letter case anywhere in the error gives 401 |
| Backend.OtherErrorServerError | backend/app.py:272 | an error without it, such as "Timeout", gives 500 |
| Scraper.KeysOf | unitrack/core/scraper.py:204-221 | each field is read from the key the mappings give it, or from its fallback key ("subject", "subjectCode", "presentCount", "absentCount", "facultName", "termName") when the mappings lack it |
| Scraper.RecordWith | unitrack/core/scraper.py:201-222 | a record is kept iff it is an object whose mapped counts pass `int()` and whose mapped faculty is a string; it carries those counts, their sum, the subject (default "Unknown"), the code (default ""), the stripped faculty and the term |
| Scraper.ScraperRecord | unitrack/core/scraper.py:201-222 | the same in terms of the mappings: a non-object is skipped, and every field is read through `mappings.get(field, fallback)` |
| Scraper.ProcessAttendance | unitrack/core/scraper.py:188-227 | at most one well-formed subject per raw record, each with a term and each produced from some raw record, and every raw record that normalises is in the result |
| Scraper.ProcessAttendanceSingle | unitrack/core/scraper.py:201-227 | one raw record gives its normalised record, or nothing when the loop body raises; with the append lemma this fixes the whole output |
| Scraper.ProcessAttendanceAppend | unitrack/core/scraper.py:201-227 | records are normalised independently and survivors keep their input order |
| Scraper.EmptyRecordKept | unitrack/core/scraper.py:204-221 | a record without any mapped key is kept with counts, total and percentage all 0 |
| Scraper.TotalMappingIgnored | unitrack/core/scraper.py:207-208 | whatever "total" is mapped to, every record reads the same keys |
| Scraper.DefaultMappingsAreFallbacks | unitrack/core/scraper.py:204-221 | the default field mappings read every field from its fallback key |
| Scraper.LooksLikeAttendance | unitrack/core/scraper.py:178-186 | true only for a non-empty list whose first element is an object |
| Scraper.LooksLikeAttendanceIff | unitrack/core/scraper.py:180-185 | true iff two different keywords occur in lower-cased keys of the first object |
| Discovery.LooksLikeAttendance | unitrack/core/discovery.py:243-262 | true only for a non-empty list whose first element is an object |
| Discovery.HitsAtLeastTwo | unitrack/core/discovery.py:257-260 | the key count reaches 2 iff two different words occur, lower-cased, in lower-cased keys |
| Discovery.LooksLikeAttendanceIff | unitrack/core/discovery.py:245-260 | true iff two different attendance keys, lower-cased, occur in lower-cased keys of the first object |
| Discovery.ScraperImpliesDiscovery | unitrack/core/discovery.py:249-260 | every payload the scraper accepts, discovery accepts too |
| Discovery.PercentageOnly | unitrack/core/discovery.py:249-260 | a record with only a "percentage" key is accepted by discovery ("percentage" and "percent") but not by the scraper |
| Discovery.FieldPatternsDistinct | unitrack/core/discovery.py:281-290 | the eight canonical fields are distinct |
| Discovery.LowerIndex | unitrack/core/discovery.py:292 | one entry per distinct lowered key, each paired with an original key that lowers to it |
| Discovery.LowerIndexInOrder | unitrack/core/discovery.py:292 | when no two keys lower alike, the index lists every key in record order |
| Discovery.KeyFor | unitrack/core/discovery.py:296-299 | the original key of the first lowered key that contains the pattern, or none iff no lowered key does |
| Discovery.FieldKey | unitrack/core/discovery.py:295-301 | the key found by the first pattern that finds one; none iff no pattern does |
| Discovery.MapFields | unitrack/core/discovery.py:294-301 | each field is mapped at most once, to an original key |
| Discovery.MapFieldsGet | unitrack/core/discovery.py:294-301 | each field's entry is exactly what its own patterns find |
| Discovery.KeyForMatches | unitrack/core/discovery.py:296-299 | a pattern finds a key iff it occurs in some lower-cased key, and the key found contains it |
| Discovery.MappedIff | unitrack/core/discovery.py:294-303 | a field is mapped iff one of its patterns occurs in a lower-cased key, to a key containing the first such pattern |
| Discovery.EarliestKey | unitrack/core/discovery.py:294-301 | with keys distinct after lowering, a field is bound to the earliest key containing its first matching pattern |
| Discovery.DiscoverFieldMappings | unitrack/core/discovery.py:264-303 | empty data gives {}; a first element that is not an object fails; each canonical field appears at most once, mapped to an original key of the first record |
| Discovery.FieldMappedIff | unitrack/core/discovery.py:294-303 | a canonical field is mapped iff one of its patterns occurs in a lower-cased key of the first record, to a key containing the first such pattern |
| Discovery.FieldEarliestKey | unitrack/core/discovery.py:292-301 | with keys distinct after lowering, each mapped field is the earliest key of the first record containing its first matching pattern |
| Discovery.FirstRecordOnly | unitrack/core/discovery.py:277 | only the first record of the sample influences the mappings |

## Left out

- Browser automation and network access are not modelled. This covers `UniversalScraper.login`, `fetch_attendance` and the context manager, `ERPDiscovery.discover_login_selectors`, `discover_attendance_api` and `discover_student_info`, and `fetch_attendance_from_erp`. They are Playwright I/O with waits and response listeners. `Backend.FetchResult` stands for what the fetch returns.
- The regular-expression URL patterns of discovery are not modelled. They depend on Python's regex engine.
- File and YAML persistence is not modelled: `load_config`, `save_config`, `ensure_config_dir`, `get_data_path`, `load_credentials` and `_save_attendance`.
- Flask routing and the JSON bodies of responses are not modelled. Only the status codes and the request checks are.
- `round(x, 2)` is not modelled. Percentages are exact rationals, and Python float division can differ from them at exact boundaries.
- Calculator.AnalysisAgrees: holds for the exact percentage of the model only. The source classifies the rounded percentage but projects from the counts. For example, 2 of 3 classes at a threshold of 66.67 rounds to 66.67, which is CRITICAL, yet one more class is still needed.
- `SubjectAnalysis.to_dict` is not modelled. The analysis is a datatype.
- `get_priority_subjects` takes the analysed list rather than the analysis dict. Its `status_priority.get(..., 2)` default cannot be reached with the three statuses.
- `analyze_subject` reads a typed `SubjectData`. Missing keys of its input dict and their defaults are not modelled.
- Calculator.AnalyzeSubject: subject and subject code are typed as strings, but both normalisers pass any JSON value through. In the source, a code that cannot be hashed (a list, say) makes `subject_code in self.custom` raise TypeError (unitrack/core/config.py:46). A non-string name with a non-empty custom map makes `subject_name.upper()` raise AttributeError (unitrack/core/config.py:52). Either one makes `analyze_all` raise when it is called on the normalised records. The model does not show these crashes.
- Text.Lower: only ASCII letters change case. Python's `lower()` / `upper()` are Unicode-wide.
- Json.IntOf: accepts only ASCII decimal strings, with an optional sign and surrounding whitespace. Python's `int()` also takes digit-group underscores and non-ASCII digits. Floats are exact reals, so infinities and NaN do not arise.
- Calculator.AnalyzeSubject: its own contract gives the tier and the message in terms of calculate_status and the message builder. The values of the projections are stated by Calculator.AnalysisAgrees, only for subjects with classes and a consistent percentage. A negative total is not guarded in the source, and the model promises nothing about it.
- Calculator.Message: it has no contract of its own. Calculator.MessageReadsBack states what the message carries.
- Discovery.EarliestKey: states the earliest key only when no two keys of the record lower alike. With clashing keys the index keeps the first position and the last original key, as the dict comprehension does.
- Config.FromDict: keys the dataclasses do not declare, and which would make the constructor raise, are not modelled. Nor are values of the wrong type. The in-place rewrite of the `selectors` entry of the input dict is not modelled either.
- Config.GetThreshold: `custom` is a sequence of pairs, and a duplicated key resolves to its first pair. A Python dict cannot hold a duplicate.

=== FILE: backend.dfy ===
/** backend/app.py: the normaliser the backend applies to the attendance
    records it captured, the validation and URL completion of a
    POST /api/fetch request, and the status code of a failed fetch. */
module Backend {
  import opened Wrappers
  import opened Text
  import opened Json
  import Dicts
  import Seqs
  import Records

  // ------------------------------------------------------------- normaliser

  /** True when the object holds a truthy value under `key`
      (`item.get(key)`, which is None when the key is absent). */
  predicate TruthyAt(f: seq<(string, Value)>, key: string) {
    Truthy(Member(f, key, Null))
  }

  /** The faculty of a raw record. When "facultName" or "facultyName" holds a
      truthy value, the value of "facultName" (or, if that key is absent,
      "facultyName") is stripped; that value must be a string, otherwise
      `.strip()` raises (None). Without a truthy faculty key it is "". */
  function Faculty(f: seq<(string, Value)>): (r: Option<string>)
    ensures !TruthyAt(f, "facultName") && !TruthyAt(f, "facultyName") ==> r == Some("")
    ensures (TruthyAt(f, "facultName") || TruthyAt(f, "facultyName")) ==>
      (r.Some? <==> Probe(f, "facultName", "facultyName", Str("")).Str?)
    ensures TruthyAt(f, "facultName") || TruthyAt(f, "facultyName") ==>
      Probe(f, "facultName", "facultyName", Str("")).Str? ==>
      r == Some(Strip(Probe(f, "facultName", "facultyName", Str("")).s))
    ensures r.Some? ==> r.value == [] || (!IsSpace(r.value[0]) && !IsSpace(r.value[|r.value| - 1]))
  {
    if TruthyAt(f, "facultName") || TruthyAt(f, "facultyName") then
      match Probe(f, "facultName", "facultyName", Str(""))
      case Str(s) => Some(Strip(s))
      case _ => None
    else
      Some("")
  }

  /** `int(item.get(first, item.get(second, 0)))` */
  function Count(f: seq<(string, Value)>, first: string, second: string): Option<int> {
    IntOf(Probe(f, first, second, Int(0)))
  }

  /** The body of the loop in process_attendance for one raw record: the
      normalised record, or None when any step raises (a record that is not
      an object, a count `int()` rejects, a faculty that is not a string). */
  function ProcessRecord(item: Value): (r: Option<Records.Subject>)
    ensures r.Some? <==>
      && item.Obj?
      && Count(item.fields, "presentCount", "present").Some?
      && Count(item.fields, "absentCount", "absent").Some?
      && Faculty(item.fields).Some?
    ensures r.Some? ==>
      && Records.WellFormed(r.value)
      && r.value.present == Count(item.fields, "presentCount", "present").value
      && r.value.absent == Count(item.fields, "absentCount", "absent").value
      && r.value.faculty == Faculty(item.fields).value
      && r.value.subject == Probe(item.fields, "subject", "subjectName", Str("Unknown"))
      && r.value.subjectCode == Probe(item.fields, "subjectCode", "code", Str(""))
      && r.value.term.None?
  {
    match item
    case Obj(f) =>
      var present := Count(f, "presentCount", "present");
      var absent := Count(f, "absentCount", "absent");
      var faculty := Faculty(f);
      if present.None? || absent.None? || faculty.None? then None
      else
        Some(Records.Normalised(
          Probe(f, "subject", "subjectName", Str("Unknown")),
          Probe(f, "subjectCode", "code", Str("")),
          present.value, absent.value,
          faculty.value, None))
    case _ => None
  }

  /** process_attendance: every raw record that normalises, in order; the
      others are skipped. */
  function ProcessAttendance(raw: seq<Value>): (r: seq<Records.Subject>)
    ensures |r| <= |raw|
    ensures forall s :: s in r ==> Records.WellFormed(s) && s.term.None?
    ensures forall s :: s in r ==> exists i :: 0 <= i < |raw| && ProcessRecord(raw[i]) == Some(s)
    ensures forall i :: 0 <= i < |raw| && ProcessRecord(raw[i]).Some? ==> ProcessRecord(raw[i]).value in r
  {
    Seqs.FilterMap(ProcessRecord, raw)
  }

  /** One raw record gives its normalised record, or nothing when it is
      skipped; with ProcessAttendanceAppend this fixes the output of every
      batch. */
  lemma ProcessAttendanceSingle(item: Value)
    ensures ProcessAttendance([item]) ==
      (if ProcessRecord(item).Some? then [ProcessRecord(item).value] else [])
  {
    Seqs.FilterMapSingle(ProcessRecord, item);
  }

  /** The records of two captured batches are normalised independently and
      come out in batch order. */
  lemma ProcessAttendanceAppend(a: seq<Value>, b: seq<Value>)
    ensures ProcessAttendance(a + b) == ProcessAttendance(a) + ProcessAttendance(b)
  {
    Seqs.FilterMapAppend(ProcessRecord, a, b);
  }

  /** A record whose counts are integers and which names no faculty is never
      skipped: a batch of such records yields one subject per record, with the
      counts, total and percentage taken from it. */
  lemma PlainRecordsKept(raw: seq<Value>)
    requires forall i :: 0 <= i < |raw| ==>
      && raw[i].Obj?
      && Probe(raw[i].fields, "presentCount", "present", Int(0)).Int?
      && Probe(raw[i].fields, "absentCount", "absent", Int(0)).Int?
      && !TruthyAt(raw[i].fields, "facultName") && !TruthyAt(raw[i].fields, "facultyName")
    ensures |ProcessAttendance(raw)| == |raw|
    ensures forall i :: 0 <= i < |raw| ==>
      var s := ProcessAttendance(raw)[i];
      && s.present == Probe(raw[i].fields, "presentCount", "present", Int(0)).i
      && s.absent == Probe(raw[i].fields, "absentCount", "absent", Int(0)).i
      && s.total == s.present + s.absent
      && s.faculty == ""
  {
    forall i | 0 <= i < |raw|
      ensures ProcessRecord(raw[i]).Some?
    {
      PlainRecordKept(raw[i]);
    }
    Seqs.FilterMapTotal(ProcessRecord, raw);
    forall i | 0 <= i < |raw|
      ensures var s := ProcessAttendance(raw)[i];
        && s.present == Probe(raw[i].fields, "presentCount", "present", Int(0)).i
        && s.absent == Probe(raw[i].fields, "absentCount", "absent", Int(0)).i
        && s.total == s.present + s.absent
        && s.faculty == ""
    {
      PlainRecordKept(raw[i]);
    }
  }

  /** One such record is kept with its integer counts and an empty faculty. */
  lemma PlainRecordKept(item: Value)
    requires item.Obj?
    requires Probe(item.fields, "presentCount", "present", Int(0)).Int?
    requires Probe(item.fields, "absentCount", "absent", Int(0)).Int?
    requires !TruthyAt(item.fields, "facultName") && !TruthyAt(item.fields, "facultyName")
    ensures ProcessRecord(item).Some?
    ensures ProcessRecord(item).value.present == Probe(item.fields, "presentCount", "present", Int(0)).i
    ensures ProcessRecord(item).value.absent == Probe(item.fields, "absentCount", "absent", Int(0)).i
    ensures ProcessRecord(item).value.total == ProcessRecord(item).value.present + ProcessRecord(item).value.absent
    ensures ProcessRecord(item).value.faculty == ""
  {
  }

  /** Worked example: " 12 " strips to "12". */
  lemma StripPadded()
    ensures Strip(" 12 ") == "12"
  {
    var s, t, u := " 12 ", " 12", "12";
    assert s[3] == ' ' && s[..3] == t && IsSpace(s[3]);
    assert t[2] == '2' && !IsSpace(t[2]);
    assert RStrip(t) == t;
    assert RStrip(s) == t;
    assert t[0] == ' ' && t[1..] == u && IsSpace(t[0]);
    assert u[0] == '1' && !IsSpace(u[0]);
    assert LStrip(u) == u;
    assert LStrip(t) == u;
  }

  /** Worked example: "12" reads as the number 12. */
  lemma DigitsTwelve()
    ensures SignedDigits("12") == Some(12)
  {
    assert "12"[..1] == "1" && "1"[..0] == "";
    assert DigitsValue("1") == 1;
    assert DigitsValue("12") == 12;
  }

  /** A count sent as a padded decimal string is accepted. */
  lemma PaddedCountAccepted()
    ensures IntOf(Str(" 12 ")) == Some(12)
  {
    StripPadded();
    DigitsTwelve();
    assert ParseInt(" 12 ") == Some(12);
  }

  /** The record of PaddedRecordKept, read field by field. */
  lemma PaddedRecordFields(f: seq<(string, Value)>)
    requires f == [("present", Str(" 12 ")), ("absentCount", Int(3))]
    ensures Count(f, "presentCount", "present") == Some(12)
    ensures Count(f, "absentCount", "absent") == Some(3)
    ensures Faculty(f) == Some("")
  {
    assert !Dicts.HasKey(f, "presentCount") && !Dicts.HasKey(f, "absent");
    assert !Dicts.HasKey(f, "facultName") && !Dicts.HasKey(f, "facultyName");
    Dicts.GetFirst(f, "present", 0);
    Dicts.GetFirst(f, "absentCount", 1);
    PaddedCountAccepted();
    assert Probe(f, "presentCount", "present", Int(0)) == Str(" 12 ");
    assert Probe(f, "absentCount", "absent", Int(0)) == Int(3);
    assert !TruthyAt(f, "facultName") && !TruthyAt(f, "facultyName");
  }

  /** A record with a count in a padded string is normalised. */
  lemma PaddedRecordKept()
    ensures var r := ProcessRecord(Obj([("present", Str(" 12 ")), ("absentCount", Int(3))]));
      && r.Some? && r.value.present == 12 && r.value.absent == 3 && r.value.total == 15
      && r.value.percentage == 80.0 && r.value.faculty == ""
  {
    var f := [("present", Str(" 12 ")), ("absentCount", Int(3))];
    PaddedRecordFields(f);
    assert Records.Percentage(12, 15) == 80.0;
  }

  /** A record whose "facultName" holds null while "facultyName" is truthy is
      skipped: the null value is the one stripped. */
  lemma NullFacultySkipped()
    ensures ProcessRecord(Obj([("facultName", Null), ("facultyName", Str("Dr. Rao"))])) == None
  {
    var g := [("facultName", Null), ("facultyName", Str("Dr. Rao"))];
    Dicts.GetFirst(g, "facultName", 0);
    Dicts.GetFirst(g, "facultyName", 1);
    assert Member(g, "facultyName", Null) == Str("Dr. Rao");
    assert TruthyAt(g, "facultyName");
    assert Probe(g, "facultName", "facultyName", Str("")) == Null;
    assert Faculty(g) == None;
  }

  // ---------------------------------------------------------------- request

  const NoData: string := "No data provided"
  const MissingFields: string := "Missing required fields: erp_url, username, password"

  /** How the handler treats a request body: it goes on to fetch with the
      cleaned fields, answers 400 with an error message, or raises before
      answering (a body that is not an object, or a URL or username that is
      not a string). */
  datatype Request =
    | Proceed(url: string, username: string, password: Value)
    | Rejected(error: string)
    | Crash

  /** `data.get(key, '').strip()`; None when the value is not a string. */
  function StrippedField(f: seq<(string, Value)>, key: string): (r: Option<string>)
    ensures !Dicts.HasKey(f, key) ==> r == Some("")
    ensures r.Some? <==> Member(f, key, Str("")).Str?
    ensures r.Some? ==> r.value == Strip(Member(f, key, Str("")).s)
  {
    match Member(f, key, Str(""))
    case Str(s) => Some(Strip(s))
    case _ => None
  }

  /** `erp_url.rstrip('/')`, then "https://" in front unless it already
      starts with "http". */
  function NormalizeUrl(u: string): (r: string)
    ensures StartsWith(r, "http")
    ensures StartsWith(RStripChar(u, '/'), "http") ==> r == RStripChar(u, '/')
    ensures !StartsWith(RStripChar(u, '/'), "http") ==> r == "https://" + RStripChar(u, '/')
  {
    var v := RStripChar(u, '/');
    if StartsWith(v, "http") then v else "https://" + v
  }

  /** A URL that is not all slashes comes out without a trailing slash, and
      normalising it again changes nothing. */
  lemma NormalizeUrlIdempotent(u: string)
    requires RStripChar(u, '/') != ""
    ensures var r := NormalizeUrl(u);
      && r[|r| - 1] != '/'
      && NormalizeUrl(r) == r
  {
    var v := RStripChar(u, '/');
    var r := NormalizeUrl(u);
    assert r[|r| - 1] == v[|v| - 1];
    assert RStripChar(r, '/') == r;
  }

  /** A URL of slashes only passes validation and becomes "https://", which
      a second pass would cut to "https:". */
  lemma SlashUrl()
    ensures NormalizeUrl("/") == "https://"
    ensures NormalizeUrl("https://") == "https:"
  {
    assert RStripChar("/", '/') == "";
    assert "https:/"[..6] == "https:";
    assert RStripChar("https:/", '/') == "https:";
    assert "https://"[..7] == "https:/";
    assert RStripChar("https://", '/') == "https:";
    assert StartsWith("https:", "http");
  }

  /** The checks at the top of fetch_attendance. */
  function ValidateRequest(data: Value): (r: Request)
    ensures !Truthy(data) ==> r == Rejected(NoData)
    ensures Truthy(data) && !data.Obj? ==> r == Crash
    ensures r.Rejected? ==> r.error == NoData || r.error == MissingFields
    ensures Truthy(data) && data.Obj? ==>
      (r == Crash <==> StrippedField(data.fields, "erp_url").None? || StrippedField(data.fields, "username").None?)
    ensures Truthy(data) && data.Obj? ==>
      StrippedField(data.fields, "erp_url").Some? && StrippedField(data.fields, "username").Some? ==>
      (r == Rejected(MissingFields) <==>
        || StrippedField(data.fields, "erp_url").value == ""
        || StrippedField(data.fields, "username").value == ""
        || !Truthy(Member(data.fields, "password", Str(""))))
    ensures r.Proceed? ==>
      && data.Obj?
      && StrippedField(data.fields, "username") == Some(r.username) && r.username != ""
      && r.password == Member(data.fields, "password", Str("")) && Truthy(r.password)
      && StartsWith(r.url, "http")
  {
    if !Truthy(data) then Rejected(NoData)
    else
      match data
      case Obj(f) =>
        var url := StrippedField(f, "erp_url");
        var username := StrippedField(f, "username");
        if url.None? || username.None? then Crash
        else
          var password := Member(f, "password", Str(""));
          if url.value == "" || username.value == "" || !Truthy(password) then Rejected(MissingFields)
          else Proceed(NormalizeUrl(url.value), username.value, password)
      case _ => Crash
  }

  /** A request object reaches the fetch exactly when its URL and username
      are strings that are not blank and its password is truthy; a missing or
      blank field is answered with the "missing fields" error. */
  lemma ValidateRequestProceeds(f: seq<(string, Value)>)
    ensures ValidateRequest(Obj(f)).Proceed? <==>
      && StrippedField(f, "erp_url").Some? && StrippedField(f, "erp_url").value != ""
      && StrippedField(f, "username").Some? && StrippedField(f, "username").value != ""
      && Truthy(Member(f, "password", Str("")))
    ensures ValidateRequest(Obj(f)).Proceed? ==>
      ValidateRequest(Obj(f)).url == NormalizeUrl(StrippedField(f, "erp_url").value)
  {
    if f != [] {
      assert Truthy(Obj(f));
    }
  }

  /** A request object without one of the three fields never reaches the
      fetch: it is answered with the "missing fields" error, and fails only
      when the URL or the username that is present is not a string. */
  lemma ValidateRequestMissingField(f: seq<(string, Value)>)
    requires f != []
    requires !Dicts.HasKey(f, "erp_url") || !Dicts.HasKey(f, "username") || !Dicts.HasKey(f, "password")
    ensures ValidateRequest(Obj(f)) == Rejected(MissingFields) || ValidateRequest(Obj(f)) == Crash
    ensures StrippedField(f, "erp_url").Some? && StrippedField(f, "username").Some? ==>
      ValidateRequest(Obj(f)) == Rejected(MissingFields)
  {
    assert Truthy(Obj(f));
    var password := Member(f, "password", Str(""));
    if !Dicts.HasKey(f, "password") {
      assert !Truthy(password);
    }
  }

  // --------------------------------------------------------------- response

  /** What fetch_attendance_from_erp hands back: the normalised subjects, or
      an error message. */
  datatype FetchResult = Fetched(subjects: seq<Records.Subject>) | FetchFailed(error: string)

  /** The status code fetch_attendance answers with. */
  function ResponseStatus(res: FetchResult): (code: int)
    ensures res.Fetched? <==> code == 200
    ensures res.FetchFailed? ==> (code == 401 <==> Contains(Lower(res.error), "credential"))
    ensures code == 200 || code == 401 || code == 500
  {
    match res
    case Fetched(_) => 200
    case FetchFailed(error) => if Contains(Lower(error), "credential") then 401 else 500
  }

  /** An error mentioning credentials, in any letter case, is an
      authentication failure. */
  lemma CredentialErrorUnauthorized(p: string, w: string, q: string)
    requires Lower(w) == "credential"
    ensures ResponseStatus(FetchFailed(p + w + q)) == 401
  {
    var s := p + w + q;
    var e := Lower(s);
    assert e[|p|..|p| + |w|] == Lower(w) by {
      forall i | 0 <= i < |w|
        ensures e[|p| + i] == Lower(w)[i]
      {
        assert s[|p| + i] == w[i];
      }
    }
    assert OccursAt(e, "credential", |p|);
    ContainsAtOffset(e, "credential");
  }

  /** Any other error is a server error. */
  lemma OtherErrorServerError()
    ensures ResponseStatus(FetchFailed("Timeout")) == 500
  {
    ContainsAtOffset(Lower("Timeout"), "credential");
  }
}

=== FILE: calculator.dfy ===
/** unitrack/core/calculator.py: the risk tier of a subject, the number of
    classes to attend or that may be missed, the per-subject analysis, the
    summary over all subjects, and the priority list.
    Percentages and thresholds are exact reals; see README for rounding. */
module Calculator {
  import opened Wrappers
  import opened Text
  import opened Config
  import Seqs
  import Records

  datatype Status = Safe | Critical | Low

  // ------------------------------------------------------------------ status

  /** calculate_status, with the safe buffer passed explicitly. */
  function CalculateStatus(percentage: real, threshold: real, buffer: real): (s: Status)
    ensures s == Safe <==> percentage >= threshold + buffer
    ensures s == Critical <==> threshold <= percentage < threshold + buffer
    ensures s == Low <==> percentage < threshold && percentage < threshold + buffer
  {
    if percentage >= threshold + buffer then Safe
    else if percentage >= threshold then Critical
    else Low
  }

  /** Urgency order used by the priority list: LOW, then CRITICAL, then SAFE. */
  function Rank(s: Status): int {
    match s
    case Low => 0
    case Critical => 1
    case Safe => 2
  }

  /** With a non-negative buffer the three tiers are the intervals
      [.., threshold), [threshold, threshold + buffer), [threshold + buffer, ..),
      and a higher percentage never lands in a more urgent tier. */
  lemma StatusTiers(p: real, q: real, threshold: real, buffer: real)
    requires buffer >= 0.0
    ensures CalculateStatus(p, threshold, buffer) == Low <==> p < threshold
    ensures p <= q ==> Rank(CalculateStatus(p, threshold, buffer)) <= Rank(CalculateStatus(q, threshold, buffer))
  {
  }

  // ------------------------------------------------------------ projections

  /** math.floor */
  function Floor(x: real): (n: int)
    ensures n as real <= x < n as real + 1.0
  {
    x.Floor
  }

  /** math.ceil */
  function Ceil(x: real): (n: int)
    ensures x <= n as real < x + 1.0
  {
    -((-x).Floor)
  }

  /** Reference meaning of "at the threshold": classes were held and the
      attended fraction is at least threshold / 100. */
  predicate Meets(attended: int, conducted: int, threshold: real) {
    conducted > 0 && attended as real / conducted as real >= threshold / 100.0
  }

  /** The formula of calculate_classes_needed before rounding up:
      (t * conducted - attended) / (1 - t) for t = threshold / 100. */
  function NeededExact(attended: int, conducted: int, t: real): (x: real)
    requires t != 1.0
    ensures x * (1.0 - t) == t * conducted as real - attended as real
  {
    (t * conducted as real - attended as real) / (1.0 - t)
  }

  /** The formula of calculate_classes_can_miss before rounding down:
      (attended - t * conducted) / t for t = threshold / 100. */
  function CanMissExact(attended: int, conducted: int, t: real): (x: real)
    requires t != 0.0
    ensures x * t == attended as real - t * conducted as real
  {
    (attended as real - t * conducted as real) / t
  }

  /** calculate_classes_needed */
  function ClassesNeeded(attended: int, conducted: int, threshold: real): (n: int)
    ensures conducted == 0 ==> n == 0
    ensures conducted != 0 && attended as real / conducted as real >= threshold / 100.0 ==> n == 0
    ensures threshold == 100.0 ==> n == 0
    ensures conducted > 0 && threshold <= 100.0 ==> n >= 0
  {
    if conducted == 0 then 0
    else
      var t := threshold / 100.0;
      if attended as real / conducted as real >= t then 0
      else
        if t == 1.0 then 0
        else Ceil(NeededExact(attended, conducted, t))
  }

  /** calculate_classes_can_miss */
  function ClassesCanMiss(attended: int, conducted: int, threshold: real): (y: int)
    ensures conducted == 0 ==> y == 0
    ensures conducted != 0 && attended as real / conducted as real < threshold / 100.0 ==> y == 0
    ensures threshold == 0.0 ==> y == 0
    ensures conducted > 0 && threshold >= 0.0 ==> y >= 0
  {
    if conducted == 0 then 0
    else
      var t := threshold / 100.0;
      if attended as real / conducted as real < t then 0
      else
        if t == 0.0 then 0
        else Floor(CanMissExact(attended, conducted, t))
  }

  lemma RatioBelow(a: real, c: real, t: real)
    requires c > 0.0
    ensures a / c < t <==> a < t * c
  {
    assert a / c * c == a;
    if a / c < t {
      assert a / c * c < t * c;
    } else {
      assert a / c * c >= t * c;
    }
  }

  lemma MulMonotone(u: real, v: real, k: real)
    requires u <= v && k > 0.0
    ensures u * k <= v * k
  {
  }

  lemma MulStrict(u: real, v: real, k: real)
    requires u < v && k > 0.0
    ensures u * k < v * k
  {
  }

  /** Attending n more classes in a row reaches the threshold, and n is the
      least such number: n - 1 classes fall short. */
  lemma {:induction false} ClassesNeededIsLeast(attended: int, conducted: int, threshold: real)
    requires conducted > 0 && !Meets(attended, conducted, threshold) && threshold < 100.0
    ensures var n := ClassesNeeded(attended, conducted, threshold);
      && n > 0
      && Meets(attended + n, conducted + n, threshold)
      && !Meets(attended + n - 1, conducted + n - 1, threshold)
  {
    var t := threshold / 100.0;
    RatioBelow(attended as real, conducted as real, t);
    var x := NeededExact(attended, conducted, t);
    var n := ClassesNeeded(attended, conducted, threshold);
    assert n == Ceil(x);
    NeededBounds(attended as real, conducted as real, t, x, n);
    RatioBelow((attended + n) as real, (conducted + n) as real, t);
    RatioBelow((attended + n - 1) as real, (conducted + n - 1) as real, t);
  }

  /** The arithmetic behind ClassesNeededIsLeast: rounding x up to n keeps
      a + n >= t * (c + n), and n - 1 breaks it. */
  lemma NeededBounds(a: real, c: real, t: real, x: real, n: int)
    requires a < t * c && t < 1.0
    requires x * (1.0 - t) == t * c - a
    requires x <= n as real < x + 1.0
    ensures n > 0
    ensures a + n as real >= t * (c + n as real)
    ensures a + (n - 1) as real < t * (c + (n - 1) as real)
  {
    var k := 1.0 - t;
    PositiveFactor(x, k, t * c - a);
    AtLeastGap(a, c, t, k, n as real, x);
    BelowGap(a, c, t, k, (n - 1) as real, x);
  }

  lemma PositiveFactor(x: real, k: real, p: real)
    requires x * k == p && k > 0.0 && p > 0.0
    ensures x > 0.0
  {
    if x <= 0.0 {
      MulMonotone(x, 0.0, k);
    }
  }

  /** m >= x, where x * k == t * c - a for k == 1 - t, gives a + m >= t * (c + m). */
  lemma AtLeastGap(a: real, c: real, t: real, k: real, m: real, x: real)
    requires k == 1.0 - t && t < 1.0 && x * k == t * c - a && x <= m
    ensures a + m >= t * (c + m)
  {
    MulMonotone(x, m, k);
    assert m * k == m - m * t;
    assert t * (c + m) == t * c + t * m;
  }

  /** m < x, where x * k == t * c - a for k == 1 - t, gives a + m < t * (c + m). */
  lemma BelowGap(a: real, c: real, t: real, k: real, m: real, x: real)
    requires k == 1.0 - t && t < 1.0 && x * k == t * c - a && m < x
    ensures a + m < t * (c + m)
  {
    MulStrict(m, x, k);
    assert m * k < t * c - a;
    assert m * k == m - m * t;
    assert m - m * t < t * c - a;
    assert t * (c + m) == t * c + t * m;
  }

  /** Missing y more classes in a row stays at the threshold, and y is the
      most: one more absence drops below it. */
  lemma {:induction false} ClassesCanMissIsMost(attended: int, conducted: int, threshold: real)
    requires Meets(attended, conducted, threshold) && threshold > 0.0
    ensures var y := ClassesCanMiss(attended, conducted, threshold);
      && y >= 0
      && Meets(attended, conducted + y, threshold)
      && !Meets(attended, conducted + y + 1, threshold)
  {
    var t := threshold / 100.0;
    var a, c := attended as real, conducted as real;
    RatioBelow(a, c, t);
    var x := CanMissExact(attended, conducted, t);
    var y := ClassesCanMiss(attended, conducted, threshold);
    assert y == Floor(x);
    CanMissBounds(a, c, t, x, y);
    RatioBelow(a, (conducted + y) as real, t);
    RatioBelow(a, (conducted + y + 1) as real, t);
  }

  /** The arithmetic behind ClassesCanMissIsMost: rounding x down to y keeps
      t * (c + y) <= a, and y + 1 breaks it. */
  lemma CanMissBounds(a: real, c: real, t: real, x: real, y: int)
    requires t > 0.0 && t * c <= a
    requires x * t == a - t * c
    requires y as real <= x < y as real + 1.0
    ensures y >= 0
    ensures t * (c + y as real) <= a
    ensures a < t * (c + (y + 1) as real)
  {
    if x < 0.0 {
      MulStrict(x, 0.0, t);
    }
    WithinGap(a, c, t, x, y as real);
    AboveGap(a, c, t, x, (y + 1) as real);
  }

  /** m <= x, where x * t == a - t * c, gives t * (c + m) <= a. */
  lemma WithinGap(a: real, c: real, t: real, x: real, m: real)
    requires t > 0.0 && x * t == a - t * c && m <= x
    ensures t * (c + m) <= a
  {
    MulMonotone(m, x, t);
    assert m * t <= x * t;
    assert t * (c + m) == t * c + m * t;
  }

  /** m > x, where x * t == a - t * c, gives t * (c + m) > a. */
  lemma AboveGap(a: real, c: real, t: real, x: real, m: real)
    requires t > 0.0 && x * t == a - t * c && x < m
    ensures a < t * (c + m)
  {
    MulStrict(x, m, t);
    assert x * t < m * t;
    assert t * (c + m) == t * c + m * t;
  }

  /** The guards of the two projections are complementary: a subject never
      both needs classes and may miss classes. */
  lemma NeverBothPositive(attended: int, conducted: int, threshold: real)
    ensures !(ClassesNeeded(attended, conducted, threshold) > 0 && ClassesCanMiss(attended, conducted, threshold) > 0)
  {
  }

  /** The two worked examples: 26 of 40 at 75% needs 16 classes; 38 of 40 may
      miss 10. */
  lemma WorkedExamples()
    ensures ClassesNeeded(26, 40, 75.0) == 16 && ClassesCanMiss(26, 40, 75.0) == 0
    ensures ClassesCanMiss(38, 40, 75.0) == 10 && ClassesNeeded(38, 40, 75.0) == 0
    ensures CalculateStatus(65.0, 75.0, 10.0) == Low && CalculateStatus(95.0, 75.0, 10.0) == Safe
  {
    assert (0.75 * 40.0 - 26.0) / (1.0 - 0.75) == 16.0;
    assert (38.0 - 0.75 * 40.0) / 0.75 == 32.0 / 3.0;
  }

  // ---------------------------------------------------------------- analysis

  /** The subject record analyze_subject reads (the keys it looks up with
      `.get`), with every key present and string-valued. */
  datatype SubjectData = SubjectData(
    subject: string,
    subjectCode: string,
    present: int,
    total: int,
    percentage: real,
    faculty: string,
    term: string)

  /** SubjectAnalysis */
  datatype SubjectAnalysis = SubjectAnalysis(
    subject: string,
    subjectCode: string,
    present: int,
    total: int,
    percentage: real,
    status: Status,
    threshold: real,
    classesNeeded: int,
    classesCanMiss: int,
    message: string,
    faculty: string,
    term: string)

  /** Text before the number in each tier's message. */
  function MessageHead(status: Status): string {
    match status
    case Safe => "Safe! Can miss "
    case Critical => "Critical! Can only miss "
    case Low => "Low! Need to attend "
  }

  /** Text after the number in each tier's message. */
  function MessageTail(status: Status): string {
    match status
    case Safe => " more class(es)"
    case Critical => " class(es)"
    case Low => " consecutive class(es)"
  }

  /** The count a tier's message reports: classes that may be missed for SAFE
      and CRITICAL, classes to attend for LOW. */
  function Reported(status: Status, needed: int, canMiss: int): int {
    if status == Low then needed else canMiss
  }

  /** The message of analyze_subject. */
  function Message(status: Status, needed: int, canMiss: int): string {
    MessageHead(status) + Decimal(Reported(status, needed, canMiss)) + MessageTail(status)
  }

  /** Each message opens with the name of its tier. */
  lemma MessageHeadWord(status: Status, needed: int, canMiss: int)
    ensures var m := Message(status, needed, canMiss);
      && (status == Safe ==> |m| >= 5 && m[..5] == "Safe!")
      && (status == Critical ==> |m| >= 9 && m[..9] == "Critical!")
      && (status == Low ==> |m| >= 4 && m[..4] == "Low!")
  {
    var m := Message(status, needed, canMiss);
    var head := MessageHead(status);
    assert m[..|head|] == head;
    match status
    case Safe => assert m[..5] == head[..5];
    case Critical => assert m[..9] == head[..9];
    case Low => assert m[..4] == head[..4];
  }

  /** The message names its tier, and the number in it parses back to the
      count that tier reports. */
  lemma MessageReadsBack(status: Status, needed: int, canMiss: int)
    ensures var m := Message(status, needed, canMiss);
      && (status == Safe ==> |m| >= 5 && m[..5] == "Safe!")
      && (status == Critical ==> |m| >= 9 && m[..9] == "Critical!")
      && (status == Low ==> |m| >= 4 && m[..4] == "Low!")
      && ParseInt(m[|MessageHead(status)|..|m| - |MessageTail(status)|]) == Some(Reported(status, needed, canMiss))
  {
    var m := Message(status, needed, canMiss);
    var head: string := MessageHead(status);
    var tail: string := MessageTail(status);
    MessageHeadWord(status, needed, canMiss);
    assert m[|head|..|m| - |tail|] == Decimal(Reported(status, needed, canMiss));
    ParseDecimal(Reported(status, needed, canMiss));
  }

  /** The percentage analyze_subject works with: the given one, or
      present / total * 100 when the given one is 0 and classes were held. */
  function EffectivePercentage(d: SubjectData): (p: real)
    ensures d.percentage != 0.0 ==> p == d.percentage
    ensures d.total > 0 && d.percentage == 0.0 ==> p * d.total as real == d.present as real * 100.0
    ensures d.total <= 0 ==> p == d.percentage
  {
    if d.percentage == 0.0 && d.total > 0 then Records.Percentage(d.present, d.total) else d.percentage
  }

  /** analyze_subject */
  function AnalyzeSubject(th: Thresholds, d: SubjectData): (r: SubjectAnalysis)
    ensures r.subject == d.subject && r.subjectCode == d.subjectCode
    ensures r.present == d.present && r.total == d.total
    ensures r.faculty == d.faculty && r.term == d.term
    ensures r.threshold == GetThreshold(th, d.subjectCode, d.subject)
    ensures r.percentage == EffectivePercentage(d)
    ensures r.status == CalculateStatus(r.percentage, r.threshold, th.safeBuffer)
    ensures d.total == 0 ==> r.classesNeeded == 0 && r.classesCanMiss == 0
    ensures r.message == Message(r.status, r.classesNeeded, r.classesCanMiss)
  {
    var threshold := GetThreshold(th, d.subjectCode, d.subject);
    var percentage := EffectivePercentage(d);
    var status := CalculateStatus(percentage, threshold, th.safeBuffer);
    var needed := ClassesNeeded(d.present, d.total, threshold);
    var canMiss := ClassesCanMiss(d.present, d.total, threshold);
    SubjectAnalysis(d.subject, d.subjectCode, d.present, d.total, percentage, status,
      threshold, needed, canMiss, Message(status, needed, canMiss), d.faculty, d.term)
  }

  /** Scaling by 100 does not change which side of the threshold a ratio is on. */
  lemma PercentAgainstThreshold(present: int, total: int, threshold: real)
    requires total > 0
    ensures Records.Percentage(present, total) >= threshold <==> Meets(present, total, threshold)
  {
  }

  /** When the record's percentage is consistent with its counts (or left at 0
      to be derived) and the buffer is non-negative, the tier and the two
      counts agree: a LOW subject is exactly one below the threshold, a SAFE
      one exactly one at the threshold plus the buffer. A LOW subject may
      miss nothing and needs the least number of classes that reaches the
      threshold (unless it is 100%); any other subject needs nothing and may
      miss the most classes that keep it (unless it is 0%). */
  lemma AnalysisAgrees(th: Thresholds, d: SubjectData)
    requires d.total > 0 && th.safeBuffer >= 0.0
    requires d.percentage == 0.0 || d.percentage == Records.Percentage(d.present, d.total)
    ensures var r := AnalyzeSubject(th, d);
      && (r.status == Low <==> !Meets(d.present, d.total, r.threshold))
      && (r.status == Low ==> r.classesCanMiss == 0)
      && (r.status == Low && r.threshold < 100.0 ==> r.classesNeeded > 0)
      && (r.status != Low ==> r.classesNeeded == 0)
      && r.percentage == Records.Percentage(d.present, d.total)
      && (r.status == Safe <==> Meets(d.present, d.total, r.threshold + th.safeBuffer))
      && (r.status == Low && r.threshold < 100.0 ==>
            && Meets(d.present + r.classesNeeded, d.total + r.classesNeeded, r.threshold)
            && !Meets(d.present + r.classesNeeded - 1, d.total + r.classesNeeded - 1, r.threshold))
      && (r.status != Low && r.threshold > 0.0 ==>
            && Meets(d.present, d.total + r.classesCanMiss, r.threshold)
            && !Meets(d.present, d.total + r.classesCanMiss + 1, r.threshold))
  {
    var r := AnalyzeSubject(th, d);
    assert r.percentage == Records.Percentage(d.present, d.total);
    PercentAgainstThreshold(d.present, d.total, r.threshold);
    PercentAgainstThreshold(d.present, d.total, r.threshold + th.safeBuffer);
    if r.status == Low && r.threshold < 100.0 {
      ClassesNeededIsLeast(d.present, d.total, r.threshold);
    }
    if r.status != Low && r.threshold > 0.0 {
      ClassesCanMissIsMost(d.present, d.total, r.threshold);
    }
  }

  // ----------------------------------------------------------------- summary

  datatype Summary = Summary(
    totalSubjects: int,
    safeCount: int,
    criticalCount: int,
    lowCount: int,
    overallPresent: int,
    overallTotal: int,
    overallPercentage: real,
    overallStatus: Status)

  /** The result of analyze_all: one analysis per subject, and the summary. */
  datatype Analysis = Analysis(subjects: seq<SubjectAnalysis>, summary: Summary)

  function CountStatus(rs: seq<SubjectAnalysis>, s: Status): (n: nat)
    ensures n <= |rs|
  {
    Seqs.Count(rs, (a: SubjectAnalysis) => a.status == s)
  }

  function SumPresent(rs: seq<SubjectAnalysis>): int {
    if rs == [] then 0 else SumPresent(rs[..|rs| - 1]) + rs[|rs| - 1].present
  }

  function SumTotal(rs: seq<SubjectAnalysis>): int {
    if rs == [] then 0 else SumTotal(rs[..|rs| - 1]) + rs[|rs| - 1].total
  }

  /** The per-subject analyses, in input order. */
  function AnalyzeEach(th: Thresholds, subjects: seq<SubjectData>): seq<SubjectAnalysis> {
    Seqs.Map((d: SubjectData) => AnalyzeSubject(th, d), subjects)
  }

  /** Analysing one more subject appends its analysis. */
  lemma AnalyzeEachPrefix(th: Thresholds, subjects: seq<SubjectData>, i: nat)
    requires i < |subjects|
    ensures AnalyzeEach(th, subjects[..i + 1]) == AnalyzeEach(th, subjects[..i]) + [AnalyzeSubject(th, subjects[i])]
  {
    assert subjects[..i + 1] == subjects[..i] + [subjects[i]];
    Seqs.MapSnoc((d: SubjectData) => AnalyzeSubject(th, d), subjects[..i], subjects[i]);
  }

  /** How the tier counts and the sums grow when one analysis is appended. */
  lemma Appended(rs: seq<SubjectAnalysis>, a: SubjectAnalysis)
    ensures CountStatus(rs + [a], Safe) == CountStatus(rs, Safe) + (if a.status == Safe then 1 else 0)
    ensures CountStatus(rs + [a], Critical) == CountStatus(rs, Critical) + (if a.status == Critical then 1 else 0)
    ensures CountStatus(rs + [a], Low) == CountStatus(rs, Low) + (if a.status == Low then 1 else 0)
    ensures SumPresent(rs + [a]) == SumPresent(rs) + a.present
    ensures SumTotal(rs + [a]) == SumTotal(rs) + a.total
  {
    assert (rs + [a])[..|rs|] == rs;
  }

  /** Every analysis is in exactly one tier, so the three counts add up to the
      number of subjects. */
  lemma {:induction false} StatusCountsPartition(rs: seq<SubjectAnalysis>)
    ensures CountStatus(rs, Safe) + CountStatus(rs, Critical) + CountStatus(rs, Low) == |rs|
  {
    if rs != [] {
      StatusCountsPartition(rs[..|rs| - 1]);
    }
  }

  /** analyze_all: analyses every subject in order, counts the tiers, sums
      the attended and conducted classes, and rates the overall percentage
      against the default threshold. */
  method AnalyzeAll(th: Thresholds, subjects: seq<SubjectData>) returns (r: Analysis)
    ensures |r.subjects| == |subjects|
    ensures r.subjects == AnalyzeEach(th, subjects)
    ensures r.summary.totalSubjects == |subjects|
    ensures r.summary.safeCount == CountStatus(r.subjects, Safe)
    ensures r.summary.criticalCount == CountStatus(r.subjects, Critical)
    ensures r.summary.lowCount == CountStatus(r.subjects, Low)
    ensures r.summary.safeCount + r.summary.criticalCount + r.summary.lowCount == |subjects|
    ensures r.summary.overallPresent == SumPresent(r.subjects)
    ensures r.summary.overallTotal == SumTotal(r.subjects)
    ensures r.summary.overallPercentage == Records.Percentage(r.summary.overallPresent, r.summary.overallTotal)
    ensures r.summary.overallStatus == CalculateStatus(r.summary.overallPercentage, th.base, th.safeBuffer)
  {
    var analyzed: seq<SubjectAnalysis> := [];
    var safe, critical, low := 0, 0, 0;
    var present, conducted := 0, 0;
    for i := 0 to |subjects|
      invariant |analyzed| == i
      invariant analyzed == AnalyzeEach(th, subjects[..i])
      invariant safe == CountStatus(analyzed, Safe)
      invariant critical == CountStatus(analyzed, Critical)
      invariant low == CountStatus(analyzed, Low)
      invariant present == SumPresent(analyzed)
      invariant conducted == SumTotal(analyzed)
    {
      var a := AnalyzeSubject(th, subjects[i]);
      AnalyzeEachPrefix(th, subjects, i);
      Appended(analyzed, a);
      analyzed := analyzed + [a];
      present := present + a.present;
      conducted := conducted + a.total;
      if a.status == Safe {
        safe := safe + 1;
      } else if a.status == Critical {
        critical := critical + 1;
      } else {
        low := low + 1;
      }
    }
    assert subjects[..|subjects|] == subjects;
    StatusCountsPartition(analyzed);
    var pct := Records.Percentage(present, conducted);
    r := Analysis(analyzed, Summary(|subjects|, safe, critical, low, present, conducted,
      pct, CalculateStatus(pct, th.base, th.safeBuffer)));
  }

  // --------------------------------------------------------------- priority

  /** The sort key of get_priority_subjects: tier rank, then percentage. */
  function Key(a: SubjectAnalysis): (int, real) {
    (Rank(a.status), a.percentage)
  }

  /** Strictly more urgent: a lower rank, or the same rank and a lower
      percentage. */
  predicate KeyLess(a: SubjectAnalysis, b: SubjectAnalysis) {
    Rank(a.status) < Rank(b.status) || (Rank(a.status) == Rank(b.status) && a.percentage < b.percentage)
  }

  predicate SortedByPriority(s: seq<SubjectAnalysis>) {
    forall i, j :: 0 <= i < j < |s| ==> !KeyLess(s[j], s[i])
  }

  /** The analyses carrying key k, in order. */
  function WithKey(s: seq<SubjectAnalysis>, k: (int, real)): seq<SubjectAnalysis> {
    if s == [] then []
    else (if Key(s[0]) == k then [s[0]] else []) + WithKey(s[1..], k)
  }

  /** Places x before the first element that is not more urgent than x. */
  function Insert(x: SubjectAnalysis, s: seq<SubjectAnalysis>): (r: seq<SubjectAnalysis>)
    requires SortedByPriority(s)
    ensures SortedByPriority(r)
    ensures multiset(r) == multiset(s) + multiset{x}
  {
    if s == [] || !KeyLess(s[0], x) then
      InsertFront(x, s);
      [x] + s
    else
      var rest := Insert(x, s[1..]);
      InsertSorted(x, s, rest);
      InsertCount(x, s, rest);
      [s[0]] + rest
  }

  lemma InsertFront(x: SubjectAnalysis, s: seq<SubjectAnalysis>)
    requires SortedByPriority(s) && (s == [] || !KeyLess(s[0], x))
    ensures SortedByPriority([x] + s)
  {
    var r := [x] + s;
    forall i, j | 0 <= i < j < |r|
      ensures !KeyLess(r[j], r[i])
    {
      if i == 0 {
        assert r[j] == s[j - 1];
        if j > 1 {
          assert !KeyLess(s[j - 1], s[0]);
        }
      } else {
        assert r[i] == s[i - 1] && r[j] == s[j - 1];
      }
    }
  }

  lemma InsertCount(x: SubjectAnalysis, s: seq<SubjectAnalysis>, rest: seq<SubjectAnalysis>)
    requires s != [] && multiset(rest) == multiset(s[1..]) + multiset{x}
    ensures multiset([s[0]] + rest) == multiset(s) + multiset{x}
  {
    assert s == [s[0]] + s[1..];
  }

  lemma InsertSorted(x: SubjectAnalysis, s: seq<SubjectAnalysis>, rest: seq<SubjectAnalysis>)
    requires s != [] && SortedByPriority(s) && KeyLess(s[0], x)
    requires SortedByPriority(rest) && multiset(rest) == multiset(s[1..]) + multiset{x}
    ensures SortedByPriority([s[0]] + rest)
  {
    var r := [s[0]] + rest;
    forall i, j | 0 <= i < j < |r|
      ensures !KeyLess(r[j], r[i])
    {
      if i == 0 {
        assert r[j] in multiset(rest) by {
          assert r[j] == rest[j - 1];
        }
        if r[j] != x {
          assert r[j] in s[1..];
          var k :| 0 <= k < |s[1..]| && s[1..][k] == r[j];
          assert s[k + 1] == r[j];
        }
      } else {
        assert r[i] == rest[i - 1] && r[j] == rest[j - 1];
      }
    }
  }

  /** `sorted(subjects, key=...)`: a stable sort on Key. */
  function SortByPriority(s: seq<SubjectAnalysis>): (r: seq<SubjectAnalysis>)
    ensures SortedByPriority(r)
    ensures multiset(r) == multiset(s)
    ensures |r| == |s|
  {
    if s == [] then [] else
      var r := Insert(s[0], SortByPriority(s[1..]));
      assert s == [s[0]] + s[1..];
      assert multiset(r) == multiset(s);
      assert |r| == |multiset(r)|;
      r
  }

  /** Inserting x puts it ahead of the elements that share its key. */
  lemma {:induction false} InsertStable(x: SubjectAnalysis, s: seq<SubjectAnalysis>, k: (int, real))
    requires SortedByPriority(s)
    ensures WithKey(Insert(x, s), k) == (if Key(x) == k then [x] else []) + WithKey(s, k)
  {
    if s != [] && KeyLess(s[0], x) {
      var rest := Insert(x, s[1..]);
      InsertStable(x, s[1..], k);
      WithKeyCons(s[0], rest, k);
      WithKeyCons(s[0], s[1..], k);
      assert s == [s[0]] + s[1..];
    } else {
      WithKeyCons(x, s, k);
    }
  }

  lemma WithKeyCons(e: SubjectAnalysis, s: seq<SubjectAnalysis>, k: (int, real))
    ensures WithKey([e] + s, k) == (if Key(e) == k then [e] else []) + WithKey(s, k)
  {
    assert ([e] + s)[1..] == s;
  }

  /** The sort is stable: among analyses with equal keys the input order is
      kept. */
  lemma {:induction false} SortStable(s: seq<SubjectAnalysis>, k: (int, real))
    ensures WithKey(SortByPriority(s), k) == WithKey(s, k)
  {
    if s != [] {
      SortStable(s[1..], k);
      InsertStable(s[0], SortByPriority(s[1..]), k);
    }
  }

  /** Python's `s[:n]`, negative n counting from the end. */
  function SliceTo<T>(s: seq<T>, n: int): (r: seq<T>)
    ensures n >= 0 ==> |r| == (if n < |s| then n else |s|)
    ensures n < 0 ==> |r| == (if |s| + n > 0 then |s| + n else 0)
    ensures r == s[..|r|]
  {
    if n >= 0 then s[..if n < |s| then n else |s|]
    else s[..if |s| + n > 0 then |s| + n else 0]
  }

  /** get_priority_subjects */
  function PrioritySubjects(analyzed: seq<SubjectAnalysis>, topN: int): (r: seq<SubjectAnalysis>)
    ensures |r| == |SliceTo(analyzed, topN)|
    ensures SortedByPriority(r)
    ensures multiset(r) <= multiset(analyzed)
  {
    var sorted := SortByPriority(analyzed);
    var r := SliceTo(sorted, topN);
    assert sorted == r + sorted[|r|..];
    r
  }

  /** Among subjects that share a key, the priority list keeps the earliest
      in input order: those with key k form a prefix of the input's subjects
      with key k. */
  lemma PriorityKeepsEarliest(analyzed: seq<SubjectAnalysis>, topN: int, k: (int, real))
    ensures var r := PrioritySubjects(analyzed, topN);
      && |WithKey(r, k)| <= |WithKey(analyzed, k)|
      && WithKey(r, k) == WithKey(analyzed, k)[..|WithKey(r, k)|]
  {
    var sorted := SortByPriority(analyzed);
    var r := PrioritySubjects(analyzed, topN);
    assert sorted == r + sorted[|r|..];
    WithKeyAppend(r, sorted[|r|..], k);
    SortStable(analyzed, k);
  }

  /** Selecting by key distributes over concatenation. */
  lemma {:induction false} WithKeyAppend(a: seq<SubjectAnalysis>, b: seq<SubjectAnalysis>, k: (int, real))
    ensures WithKey(a + b, k) == WithKey(a, k) + WithKey(b, k)
  {
    if a == [] {
      assert a + b == b;
    } else {
      assert (a + b)[1..] == a[1..] + b;
      WithKeyAppend(a[1..], b, k);
    }
  }

  /** Nothing left out of the priority list is more urgent than anything in
      it. */
  lemma PriorityIsMostUrgent(analyzed: seq<SubjectAnalysis>, topN: int)
    ensures var r := PrioritySubjects(analyzed, topN);
      forall x, y :: x in r && y in multiset(analyzed) - multiset(r) ==> !KeyLess(y, x)
  {
    var sorted := SortByPriority(analyzed);
    var r := PrioritySubjects(analyzed, topN);
    var n := |r|;
    var rest := sorted[n..];
    SplitMultiset(sorted, n);
    assert multiset(analyzed) - multiset(r) == multiset(rest);
    forall x, y | x in r && y in multiset(analyzed) - multiset(r)
      ensures !KeyLess(y, x)
    {
      SortedSplit(sorted, n, x, y);
    }
  }

  lemma SplitMultiset<T>(t: seq<T>, n: nat)
    requires n <= |t|
    ensures multiset(t) - multiset(t[..n]) == multiset(t[n..])
  {
    assert t == t[..n] + t[n..];
  }

  lemma SortedSplit(t: seq<SubjectAnalysis>, n: nat, x: SubjectAnalysis, y: SubjectAnalysis)
    requires n <= |t| && SortedByPriority(t)
    requires x in t[..n] && y in multiset(t[n..])
    ensures !KeyLess(y, x)
  {
    var i :| 0 <= i < n && t[..n][i] == x;
    assert y in t[n..];
    var j :| 0 <= j < |t[n..]| && t[n..][j] == y;
    assert t[i] == x && t[n + j] == y;
  }

  /** get_priority_subjects with its default of five. */
  lemma DefaultPriorityLength(analyzed: seq<SubjectAnalysis>)
    ensures |PrioritySubjects(analyzed, 5)| == (if |analyzed| < 5 then |analyzed| else 5)
  {
  }
}

=== FILE: config.dfy ===
/** The configuration dataclasses of unitrack/core/config.py: CSS selectors,
    attendance thresholds with their per-subject overrides, ERP settings,
    credentials, and the dict form the configuration is saved in. */
module Config {
  import opened Wrappers
  import opened Text
  import Dicts
  import Seqs

  // ---------------------------------------------------------------- selectors

  datatype Selectors = Selectors(
    usernameInput: string,
    passwordInput: string,
    loginButton: string,
    attendanceTrigger: string)

  const DefaultSelectors := Selectors("", "", "", "")

  /** The selectors the login needs, in the order is_complete lists them. */
  function LoginSelectors(s: Selectors): seq<string> {
    [s.usernameInput, s.passwordInput, s.loginButton]
  }

  /** Selectors.is_complete: `all([...])` over the login selectors, so every
      one of them is non-empty. */
  function IsComplete(s: Selectors): (r: bool)
    ensures r <==> forall i :: 0 <= i < |LoginSelectors(s)| ==> LoginSelectors(s)[i] != ""
  {
    var login := LoginSelectors(s);
    assert login[0] == s.usernameInput && login[1] == s.passwordInput && login[2] == s.loginButton;
    s.usernameInput != "" && s.passwordInput != "" && s.loginButton != ""
  }

  /** The attendance trigger plays no part in completeness, and the default
      selectors are incomplete. */
  lemma CompletenessIgnoresTrigger(s: Selectors, trigger: string)
    ensures IsComplete(s.(attendanceTrigger := trigger)) == IsComplete(s)
    ensures !IsComplete(DefaultSelectors)
  {
  }

  // --------------------------------------------------------------- thresholds

  /** `custom` maps a subject code or a name keyword to its threshold, in
      insertion order. */
  datatype Thresholds = Thresholds(base: real, safeBuffer: real, custom: seq<(string, real)>)

  const DefaultThresholds := Thresholds(75.0, 10.0, [])

  /** `keyword.upper() in subject_name.upper()` */
  predicate KeywordMatches(keyword: string, name: string) {
    Contains(Upper(name), Upper(keyword))
  }

  /** Position of the first custom entry, in insertion order, whose key occurs
      in the subject name regardless of case. */
  function FirstKeyword(custom: seq<(string, real)>, name: string): (r: Option<nat>)
    ensures r.None? <==> forall i :: 0 <= i < |custom| ==> !KeywordMatches(custom[i].0, name)
    ensures r.Some? ==> r.value < |custom| && KeywordMatches(custom[r.value].0, name)
    ensures r.Some? ==> forall j :: 0 <= j < r.value ==> !KeywordMatches(custom[j].0, name)
  {
    Seqs.First(custom, (e: (string, real)) => KeywordMatches(e.0, name))
  }

  /** Thresholds.get_threshold. An absent code or name (None) is the empty
      string: both are falsy. */
  function GetThreshold(th: Thresholds, code: string, name: string): (r: real)
    // 1. a non-empty code that is exactly a key wins
    ensures code != "" && Dicts.HasKey(th.custom, code) ==> Some(r) == Dicts.Get(th.custom, code)
    // 2. otherwise the first keyword found in a non-empty name
    ensures !(code != "" && Dicts.HasKey(th.custom, code)) && name != "" && FirstKeyword(th.custom, name).Some? ==>
      r == th.custom[FirstKeyword(th.custom, name).value].1
    // 3. otherwise the default
    ensures !(code != "" && Dicts.HasKey(th.custom, code)) && (name == "" || FirstKeyword(th.custom, name).None?) ==>
      r == th.base
    // the result is always the default or one of the custom values
    ensures r == th.base || exists i :: 0 <= i < |th.custom| && th.custom[i].1 == r
  {
    if code != "" && Dicts.HasKey(th.custom, code) then
      Dicts.Get(th.custom, code).value
    else if name != "" && FirstKeyword(th.custom, name).Some? then
      th.custom[FirstKeyword(th.custom, name).value].1
    else
      th.base
  }

  /** Without a code or a name the default applies. */
  lemma NoSubjectGetsDefault(th: Thresholds)
    ensures GetThreshold(th, "", "") == th.base
  {
  }

  /** Rule order decides: when entries i < j both match the name (and the code
      is no exact key), entry j is never the one chosen, and the answer comes
      from entry i or an earlier one. */
  lemma EarlierKeywordWins(th: Thresholds, code: string, name: string, i: nat, j: nat)
    requires i < j < |th.custom|
    requires KeywordMatches(th.custom[i].0, name) && KeywordMatches(th.custom[j].0, name)
    requires name != "" && !(code != "" && Dicts.HasKey(th.custom, code))
    ensures FirstKeyword(th.custom, name).Some? && FirstKeyword(th.custom, name).value <= i
    ensures GetThreshold(th, code, name) == th.custom[FirstKeyword(th.custom, name).value].1
  {
  }

  lemma UpperOfLower(s: string)
    ensures Upper(Lower(s)) == Upper(s)
  {
    assert forall i :: 0 <= i < |s| ==> UpperChar(LowerChar(s[i])) == UpperChar(s[i]);
  }

  /** Keyword matching ignores the case of the subject name. */
  lemma NameCaseIrrelevant(th: Thresholds, code: string, name: string)
    ensures GetThreshold(th, code, Lower(name)) == GetThreshold(th, code, name)
  {
    UpperOfLower(name);
    assert forall kw :: KeywordMatches(kw, Lower(name)) == KeywordMatches(kw, name);
    assert FirstKeyword(th.custom, Lower(name)) == FirstKeyword(th.custom, name) by {
      var a := FirstKeyword(th.custom, Lower(name));
      var b := FirstKeyword(th.custom, name);
      if a.Some? && b.Some? {
        assert !(a.value < b.value) && !(b.value < a.value);
      }
    }
  }

  // --------------------------------------------------- institution, ERP, config

  datatype Institution = Institution(name: string, shortName: string, logoUrl: string, color: string)

  const DefaultInstitution := Institution("My Institution", "", "", "#3B82F6")

  datatype ErpConfig = ErpConfig(
    baseUrl: string,
    loginUrl: string,
    attendanceApi: string,
    selectors: Selectors,
    fieldMappings: seq<(string, string)>)

  /** The default mapping from canonical fields to upstream JSON keys. */
  const DefaultFieldMappings: seq<(string, string)> := [
    ("subject", "subject"),
    ("subject_code", "subjectCode"),
    ("present", "presentCount"),
    ("absent", "absentCount"),
    ("total", "session"),
    ("faculty", "facultName"),
    ("term", "termName")
  ]

  /** The default field mappings name each canonical field once. */
  lemma DefaultFieldMappingsDistinct()
    ensures Dicts.DistinctKeys(DefaultFieldMappings)
  {
    var keys := Dicts.Keys(DefaultFieldMappings);
    assert keys == ["subject", "subject_code", "present", "absent", "total", "faculty", "term"];
    forall i, j | 0 <= i < j < 7
      ensures keys[i] != keys[j]
    {
      assert |keys[i]| != |keys[j]| || keys[i][0] != keys[j][0];
    }
  }

  const DefaultErp := ErpConfig("", "", "", DefaultSelectors, DefaultFieldMappings)

  datatype Credentials = Credentials(username: string, password: string)

  datatype Config = Config(
    institution: Institution,
    erp: ErpConfig,
    thresholds: Thresholds,
    credentials: Credentials,
    studentName: string,
    rollNumber: string,
    branch: string,
    section: string,
    headless: bool,
    autoRefresh: bool)

  const DefaultConfig := Config(
    DefaultInstitution, DefaultErp, DefaultThresholds, Credentials("", ""),
    "", "", "", "", false, false)

  /** Config.is_configured, read as a truth value: the base URL, every login
      selector, the username and the password are all non-empty. */
  function IsConfigured(c: Config): (r: bool)
    ensures r <==>
      && c.erp.baseUrl != "" && c.credentials.username != "" && c.credentials.password != ""
      && forall i :: 0 <= i < |LoginSelectors(c.erp.selectors)| ==> LoginSelectors(c.erp.selectors)[i] != ""
    ensures r ==> Scrubbed(c) != c
  {
    && c.erp.baseUrl != ""
    && IsComplete(c.erp.selectors)
    && c.credentials.username != ""
    && c.credentials.password != ""
  }

  /** The configuration with its password blanked. */
  function Scrubbed(c: Config): Config {
    c.(credentials := c.credentials.(password := ""))
  }

  // ------------------------------------------------------------- dict form

  /* The nested dicts of `asdict(config)`. A key that is missing from a dict
     is None; keys the dataclasses do not declare are not modelled. */

  datatype SelectorsDict = SelectorsDict(
    usernameInput: Option<string>,
    passwordInput: Option<string>,
    loginButton: Option<string>,
    attendanceTrigger: Option<string>)

  datatype InstitutionDict = InstitutionDict(
    name: Option<string>,
    shortName: Option<string>,
    logoUrl: Option<string>,
    color: Option<string>)

  datatype ErpDict = ErpDict(
    baseUrl: Option<string>,
    loginUrl: Option<string>,
    attendanceApi: Option<string>,
    selectors: Option<SelectorsDict>,
    fieldMappings: Option<seq<(string, string)>>)

  datatype ThresholdsDict = ThresholdsDict(
    base: Option<real>,
    safeBuffer: Option<real>,
    custom: Option<seq<(string, real)>>)

  datatype CredentialsDict = CredentialsDict(username: Option<string>, password: Option<string>)

  datatype ConfigDict = ConfigDict(
    institution: Option<InstitutionDict>,
    erp: Option<ErpDict>,
    thresholds: Option<ThresholdsDict>,
    credentials: Option<CredentialsDict>,
    studentName: Option<string>,
    rollNumber: Option<string>,
    branch: Option<string>,
    section: Option<string>,
    headless: Option<bool>,
    autoRefresh: Option<bool>)

  const EmptyDict := ConfigDict(None, None, None, None, None, None, None, None, None, None)

  /** Config.to_dict: every field, except that the password is written as "". */
  function ToDict(c: Config): (d: ConfigDict)
    ensures d.credentials == Some(CredentialsDict(Some(c.credentials.username), Some("")))
    ensures FromDict(d) == Scrubbed(c)
  {
    var s := c.erp.selectors;
    var i := c.institution;
    var t := c.thresholds;
    ConfigDict(
      Some(InstitutionDict(Some(i.name), Some(i.shortName), Some(i.logoUrl), Some(i.color))),
      Some(ErpDict(
        Some(c.erp.baseUrl), Some(c.erp.loginUrl), Some(c.erp.attendanceApi),
        Some(SelectorsDict(Some(s.usernameInput), Some(s.passwordInput), Some(s.loginButton), Some(s.attendanceTrigger))),
        Some(c.erp.fieldMappings))),
      Some(ThresholdsDict(Some(t.base), Some(t.safeBuffer), Some(t.custom))),
      Some(CredentialsDict(Some(c.credentials.username), Some(""))),
      Some(c.studentName), Some(c.rollNumber), Some(c.branch), Some(c.section),
      Some(c.headless), Some(c.autoRefresh))
  }

  /** `Selectors(**d)` */
  function SelectorsFrom(d: SelectorsDict): Selectors {
    Selectors(d.usernameInput.GetOr(""), d.passwordInput.GetOr(""), d.loginButton.GetOr(""),
              d.attendanceTrigger.GetOr(""))
  }

  /** `Institution(**d)` */
  function InstitutionFrom(d: InstitutionDict): Institution {
    Institution(d.name.GetOr(DefaultInstitution.name), d.shortName.GetOr(""), d.logoUrl.GetOr(""),
                d.color.GetOr(DefaultInstitution.color))
  }

  /** `ERPConfig(**d)`, with a nested selectors dict converted first. */
  function ErpFrom(d: ErpDict): ErpConfig {
    ErpConfig(d.baseUrl.GetOr(""), d.loginUrl.GetOr(""), d.attendanceApi.GetOr(""),
              match d.selectors { case Some(s) => SelectorsFrom(s) case None => DefaultSelectors },
              d.fieldMappings.GetOr(DefaultFieldMappings))
  }

  /** `Thresholds(**d)` */
  function ThresholdsFrom(d: ThresholdsDict): Thresholds {
    Thresholds(d.base.GetOr(DefaultThresholds.base), d.safeBuffer.GetOr(DefaultThresholds.safeBuffer),
               d.custom.GetOr([]))
  }

  /** Config.from_dict: start from the defaults and replace each section or
      simple field that the dict carries. */
  function FromDict(d: ConfigDict): (c: Config)
    ensures d.institution.None? ==> c.institution == DefaultInstitution
    ensures d.erp.None? ==> c.erp == DefaultErp
    ensures d.thresholds.None? ==> c.thresholds == DefaultThresholds
    ensures d.credentials.None? ==> c.credentials == Credentials("", "")
    ensures d.erp.Some? && d.erp.value.selectors.None? ==> c.erp.selectors == DefaultSelectors
    ensures d.erp.Some? && d.erp.value.fieldMappings.None? ==> c.erp.fieldMappings == DefaultFieldMappings
    ensures d.erp.Some? && d.erp.value.selectors.Some? ==>
      var sd := d.erp.value.selectors.value;
      && c.erp.selectors.usernameInput == sd.usernameInput.GetOr("")
      && c.erp.selectors.passwordInput == sd.passwordInput.GetOr("")
      && c.erp.selectors.loginButton == sd.loginButton.GetOr("")
      && c.erp.selectors.attendanceTrigger == sd.attendanceTrigger.GetOr("")
    ensures d.institution.Some? ==>
      && c.institution.name == d.institution.value.name.GetOr("My Institution")
      && c.institution.shortName == d.institution.value.shortName.GetOr("")
      && c.institution.logoUrl == d.institution.value.logoUrl.GetOr("")
      && c.institution.color == d.institution.value.color.GetOr("#3B82F6")
    ensures d.erp.Some? ==>
      && c.erp.baseUrl == d.erp.value.baseUrl.GetOr("")
      && c.erp.loginUrl == d.erp.value.loginUrl.GetOr("")
      && c.erp.attendanceApi == d.erp.value.attendanceApi.GetOr("")
      && c.erp.fieldMappings == d.erp.value.fieldMappings.GetOr(DefaultFieldMappings)
    ensures d.thresholds.Some? ==>
      && c.thresholds.base == d.thresholds.value.base.GetOr(75.0)
      && c.thresholds.safeBuffer == d.thresholds.value.safeBuffer.GetOr(10.0)
      && c.thresholds.custom == d.thresholds.value.custom.GetOr([])
    ensures d.credentials.Some? ==>
      && c.credentials.username == d.credentials.value.username.GetOr("")
      && c.credentials.password == d.credentials.value.password.GetOr("")
    ensures c.studentName == d.studentName.GetOr("")
    ensures c.rollNumber == d.rollNumber.GetOr("")
    ensures c.branch == d.branch.GetOr("")
    ensures c.section == d.section.GetOr("")
    ensures c.headless == d.headless.GetOr(false)
    ensures c.autoRefresh == d.autoRefresh.GetOr(false)
  {
    Config(
      match d.institution { case Some(i) => InstitutionFrom(i) case None => DefaultInstitution },
      match d.erp { case Some(e) => ErpFrom(e) case None => DefaultErp },
      match d.thresholds { case Some(t) => ThresholdsFrom(t) case None => DefaultThresholds },
      match d.credentials {
        case Some(cr) => Credentials(cr.username.GetOr(""), cr.password.GetOr(""))
        case None => Credentials("", "")
      },
      d.studentName.GetOr(""), d.rollNumber.GetOr(""), d.branch.GetOr(""), d.section.GetOr(""),
      d.headless.GetOr(false), d.autoRefresh.GetOr(false))
  }

  /** A dict with none of the known keys gives the default configuration:
      threshold 75, buffer 10, no custom rules. */
  lemma FromEmptyDict()
    ensures FromDict(EmptyDict) == DefaultConfig
    ensures FromDict(EmptyDict).thresholds == Thresholds(75.0, 10.0, [])
  {
  }

  /** The saved form does not depend on the password. */
  lemma ToDictHidesPassword(c: Config, password: string)
    ensures ToDict(c.(credentials := c.credentials.(password := password))) == ToDict(c)
  {
  }

  /** A configuration saved and loaded back is never "configured": the
      password must come from somewhere other than the saved dict. */
  lemma ReloadedConfigLacksPassword(c: Config)
    ensures !IsConfigured(FromDict(ToDict(c)))
  {
  }
}

=== FILE: dicts.dfy ===
/** A Python dict modelled as its items in insertion order: a sequence of
    key/value pairs. Lookup finds the first pair with the key; `Put` is the
    item assignment `d[k] = v`, which overwrites in place or appends. */
module Dicts {
  import opened Wrappers
  import Seqs

  predicate HasKey<K(==), V>(d: seq<(K, V)>, k: K) {
    exists i :: 0 <= i < |d| && d[i].0 == k
  }

  /** No key occurs twice, as in every real dict. */
  predicate DistinctKeys<K(==), V>(d: seq<(K, V)>) {
    forall i, j :: 0 <= i < j < |d| ==> d[i].0 != d[j].0
  }

  /** A prefix of a dict with distinct keys has distinct keys, none of them
      a key of the pairs after it. */
  lemma DistinctPrefix<K, V>(d: seq<(K, V)>, n: nat)
    requires DistinctKeys(d) && n <= |d|
    ensures DistinctKeys(d[..n])
    ensures forall i, j :: 0 <= i < n <= j < |d| ==> d[..n][i].0 != d[j].0
  {
    forall i, j | 0 <= i < j < n
      ensures d[..n][i].0 != d[..n][j].0
    {
      assert d[..n][i] == d[i] && d[..n][j] == d[j];
    }
  }

  function Keys<K, V>(d: seq<(K, V)>): (r: seq<K>)
    ensures |r| == |d| && forall i :: 0 <= i < |d| ==> r[i] == d[i].0
  {
    seq(|d|, i requires 0 <= i < |d| => d[i].0)
  }

  function Values<K, V>(d: seq<(K, V)>): (r: seq<V>)
    ensures |r| == |d| && forall i :: 0 <= i < |d| ==> r[i] == d[i].1
  {
    seq(|d|, i requires 0 <= i < |d| => d[i].1)
  }

  /** Position of the first pair whose key is `k`. */
  function IndexOf<K(==), V>(d: seq<(K, V)>, k: K): (r: Option<nat>)
    ensures r.None? <==> !HasKey(d, k)
    ensures r.Some? ==> r.value < |d| && d[r.value].0 == k
    ensures r.Some? ==> forall j :: 0 <= j < r.value ==> d[j].0 != k
  {
    Seqs.First(d, (e: (K, V)) => e.0 == k)
  }

  /** `d.get(k)`: the value of the first pair whose key is `k`. */
  function Get<K(==), V>(d: seq<(K, V)>, k: K): (r: Option<V>)
    ensures r.Some? <==> HasKey(d, k)
    ensures r.Some? ==> exists i :: 0 <= i < |d| && d[i] == (k, r.value) && forall j :: 0 <= j < i ==> d[j].0 != k
  {
    match IndexOf(d, k)
    case Some(i) => Some(d[i].1)
    case None => None
  }

  /** The pair found by `Get` is the first one carrying the key. */
  lemma GetFirst<K, V>(d: seq<(K, V)>, k: K, i: nat)
    requires i < |d| && d[i].0 == k
    requires forall j :: 0 <= j < i ==> d[j].0 != k
    ensures Get(d, k) == Some(d[i].1)
  {
    var i' :| 0 <= i' < |d| && d[i'] == (k, Get(d, k).value) && forall j :: 0 <= j < i' ==> d[j].0 != k;
    assert i' == i;
  }

  /** In a dict with distinct keys, any pair carrying the key is the one found. */
  lemma GetDistinct<K, V>(d: seq<(K, V)>, k: K, i: nat)
    requires DistinctKeys(d) && i < |d| && d[i].0 == k
    ensures Get(d, k) == Some(d[i].1)
  {
    GetFirst(d, k, i);
  }

  /** `d.get(k, default)` */
  function GetOr<K(==), V>(d: seq<(K, V)>, k: K, default: V): (r: V)
    ensures HasKey(d, k) ==> Some(r) == Get(d, k)
    ensures !HasKey(d, k) ==> r == default
  {
    Get(d, k).GetOr(default)
  }

  /** `d[k] = v`: an existing key keeps its position, a new key goes last. */
  function Put<K(==, !new), V>(d: seq<(K, V)>, k: K, v: V): (r: seq<(K, V)>)
    ensures |r| == if HasKey(d, k) then |d| else |d| + 1
    ensures forall i :: 0 <= i < |d| ==> r[i].0 == d[i].0
    ensures Get(r, k) == Some(v)
    ensures forall k' :: k' != k ==> Get(r, k') == Get(d, k')
    ensures DistinctKeys(d) ==> DistinctKeys(r)
    ensures forall i :: 0 <= i < |r| ==> r[i] == (k, v) || (i < |d| && r[i] == d[i])
  {
    var r := match IndexOf(d, k)
      case Some(i) => d[i := (k, v)]
      case None => d + [(k, v)];
    PutLookups(d, k, v, r);
    r
  }

  /** A new key is appended. */
  lemma PutNew<K(!new), V>(d: seq<(K, V)>, k: K, v: V)
    requires !HasKey(d, k)
    ensures Put(d, k, v) == d + [(k, v)]
  {
    assert IndexOf(d, k).None?;
  }

  lemma PutLookups<K(!new), V>(d: seq<(K, V)>, k: K, v: V, r: seq<(K, V)>)
    requires IndexOf(d, k).Some? ==> r == d[IndexOf(d, k).value := (k, v)]
    requires IndexOf(d, k).None? ==> r == d + [(k, v)]
    ensures Get(r, k) == Some(v)
    ensures forall k' :: k' != k ==> Get(r, k') == Get(d, k')
  {
    match IndexOf(d, k) {
      case Some(i) => GetFirst(r, k, i);
      case None => GetFirst(r, k, |d|);
    }
    forall k' | k' != k
      ensures Get(r, k') == Get(d, k')
    {
      match IndexOf(d, k')
      case Some(i') =>
        assert r[i'] == d[i'];
        GetFirst(d, k', i');
        GetFirst(r, k', i');
      case None =>
        assert !HasKey(r, k');
    }
  }
}

=== FILE: discovery.dfy ===
/** unitrack/core/discovery.py: the broader attendance heuristic used while
    discovering an ERP's API, and the guess of field mappings from one sample
    record. */
module Discovery {
  import opened Wrappers
  import opened Text
  import opened Json
  import Dicts
  import Seqs
  import Scraper

  // -------------------------------------------------------------- detection

  /** The key names _looks_like_attendance looks for. */
  const AttendanceKeys: seq<string> := [
    "present", "absent", "attendance", "attended",
    "presentCount", "absentCount", "totalClasses",
    "subject", "subjectCode", "course", "faculty",
    "percentage", "percent"]

  /** How many of the words, lower-cased, occur in some lower-cased key of
      the record. */
  function Hits(words: seq<string>, fields: seq<(string, Value)>): (n: nat)
    ensures n <= |words|
  {
    Seqs.Count(Seqs.Map(Lower, words), (w: string) => AnyKeyContains(LoweredKeys(fields), w))
  }

  /** At least two of the words hit exactly when two different ones do. */
  lemma HitsAtLeastTwo(words: seq<string>, fields: seq<(string, Value)>)
    ensures Hits(words, fields) >= 2 <==>
      exists i, j :: 0 <= i < |words| && 0 <= j < |words| && i != j
        && AnyKeyContains(LoweredKeys(fields), Lower(words[i]))
        && AnyKeyContains(LoweredKeys(fields), Lower(words[j]))
  {
    var keys := LoweredKeys(fields);
    var lowered := Seqs.Map(Lower, words);
    Seqs.CountAtLeastTwo(lowered, (w: string) => AnyKeyContains(keys, w));
  }

  /** _looks_like_attendance */
  function LooksLikeAttendance(data: Value): (r: bool)
    ensures r ==> data.List? && |data.items| > 0 && data.items[0].Obj?
  {
    data.List? && |data.items| > 0 && data.items[0].Obj? && Hits(AttendanceKeys, data.items[0].fields) >= 2
  }

  /** A payload looks like attendance exactly when it is a non-empty list
      whose first element is an object in whose lower-cased keys two
      different key names occur, lower-cased. */
  lemma LooksLikeAttendanceIff(data: Value)
    ensures LooksLikeAttendance(data) <==>
      && data.List? && |data.items| > 0 && data.items[0].Obj?
      && (exists i, j :: 0 <= i < |AttendanceKeys| && 0 <= j < |AttendanceKeys| && i != j
            && AnyKeyContains(LoweredKeys(data.items[0].fields), Lower(AttendanceKeys[i]))
            && AnyKeyContains(LoweredKeys(data.items[0].fields), Lower(AttendanceKeys[j])))
  {
    if data.List? && |data.items| > 0 && data.items[0].Obj? {
      HitsAtLeastTwo(AttendanceKeys, data.items[0].fields);
    }
  }

  /** Where each keyword of the scraper's heuristic sits among the key names
      of the discovery heuristic. */
  function KeywordPosition(i: nat): (p: nat)
    requires i < |Scraper.Keywords|
    ensures p < |AttendanceKeys| && AttendanceKeys[p] == Scraper.Keywords[i]
  {
    if i == 0 then 0 else if i == 1 then 1 else if i == 2 then 7 else if i == 3 then 2 else 10
  }

  lemma PositionsDistinct(i: nat, j: nat)
    requires i < |Scraper.Keywords| && j < |Scraper.Keywords| && i != j
    ensures KeywordPosition(i) != KeywordPosition(j)
  {
  }

  /** The scraper's keywords are already lower-case. */
  lemma KeywordLowerCase(i: nat)
    requires i < |Scraper.Keywords|
    ensures Lower(Scraper.Keywords[i]) == Scraper.Keywords[i]
  {
    var w := Scraper.Keywords[i];
    assert forall k :: 0 <= k < |w| ==> 'a' <= w[k] <= 'z';
    LowerOfLowerCase(w);
  }

  /** The discovery heuristic is the broader one: every payload the scraper
      accepts as attendance is accepted here too. */
  lemma ScraperImpliesDiscovery(data: Value)
    ensures Scraper.LooksLikeAttendance(data) ==> LooksLikeAttendance(data)
  {
    if Scraper.LooksLikeAttendance(data) {
      Scraper.LooksLikeAttendanceIff(data);
      var fields := data.items[0].fields;
      var keys := LoweredKeys(fields);
      var i, j :| 0 <= i < |Scraper.Keywords| && 0 <= j < |Scraper.Keywords| && i != j
        && AnyKeyContains(keys, Scraper.Keywords[i])
        && AnyKeyContains(keys, Scraper.Keywords[j]);
      var p, q := KeywordPosition(i), KeywordPosition(j);
      PositionsDistinct(i, j);
      KeywordLowerCase(i);
      KeywordLowerCase(j);
      assert Lower(AttendanceKeys[p]) == Scraper.Keywords[i];
      assert Lower(AttendanceKeys[q]) == Scraper.Keywords[j];
      TwoHits(AttendanceKeys, fields, p, q);
    }
  }

  /** Two different words that hit make the count at least two. */
  lemma TwoHits(words: seq<string>, fields: seq<(string, Value)>, p: nat, q: nat)
    requires p < |words| && q < |words| && p != q
    requires AnyKeyContains(LoweredKeys(fields), Lower(words[p]))
    requires AnyKeyContains(LoweredKeys(fields), Lower(words[q]))
    ensures Hits(words, fields) >= 2
  {
    HitsAtLeastTwo(words, fields);
  }

  /** A keyword that needs a character the key lacks does not occur in it. */
  lemma Lacks(key: string, word: string, j: nat)
    requires j < |word| && word[j] !in key
    ensures !AnyKeyContains([key], word)
  {
    if AnyKeyContains([key], word) {
      ContainsChar(key, word, j);
    }
  }

  /** A record whose only key is "percentage" is attendance to discovery
      ("percentage" and "percent" both occur) but not to the scraper (none of
      its keywords does). */
  lemma PercentageOnly(data: Value)
    requires data == Json.List([Obj([("percentage", Float(85.0))])])
    ensures LooksLikeAttendance(data)
    ensures !Scraper.LooksLikeAttendance(data)
  {
    var fields := data.items[0].fields;
    var key := PercentageKeyLowered(fields);
    PercentageDiscovered(fields, key);
    PercentageNotScraped(data, key);
  }

  lemma PercentageKeyLowered(fields: seq<(string, Value)>) returns (key: string)
    requires fields == [("percentage", Float(85.0))]
    ensures key == "percentage" && LoweredKeys(fields) == [key]
  {
    key := fields[0].0;
    LowerOfLowerCase(key);
    var keys := LoweredKeys(fields);
    assert |keys| == 1 && keys[0] == key;
  }

  lemma PercentageDiscovered(fields: seq<(string, Value)>, key: string)
    requires key == "percentage" && LoweredKeys(fields) == [key]
    ensures Hits(AttendanceKeys, fields) >= 2
  {
    PercentageWords();
    PercentageHits(fields, key);
    TwoHits(AttendanceKeys, fields, 11, 12);
  }

  lemma PercentageWords()
    ensures Lower(AttendanceKeys[11]) == "percentage"
    ensures Lower(AttendanceKeys[12]) == "percent"
  {
    KeyEleven();
    KeyTwelve();
  }

  lemma KeyEleven()
    ensures Lower(AttendanceKeys[11]) == "percentage"
  {
    assert AttendanceKeys[11] == "percentage";
    LowerOfLowerCase("percentage");
  }

  lemma KeyTwelve()
    ensures Lower(AttendanceKeys[12]) == "percent"
  {
    assert AttendanceKeys[12] == "percent";
    LowerOfLowerCase("percent");
  }

  lemma PercentageHits(fields: seq<(string, Value)>, key: string)
    requires key == "percentage" && LoweredKeys(fields) == [key]
    ensures AnyKeyContains(LoweredKeys(fields), "percentage")
    ensures AnyKeyContains(LoweredKeys(fields), "percent")
  {
    var keys := LoweredKeys(fields);
    assert keys[0] == key;
    ContainsTrivial(key);
    assert OccursAt(key, "percent", 0);
    ContainsAtOffset(key, "percent");
  }

  lemma PercentageNotScraped(data: Value, key: string)
    requires data.List? && |data.items| > 0 && data.items[0].Obj?
    requires key == "percentage" && LoweredKeys(data.items[0].fields) == [key]
    ensures !Scraper.LooksLikeAttendance(data)
  {
    Lacks(key, Scraper.Keywords[0], 3);
    Lacks(key, Scraper.Keywords[1], 1);
    Lacks(key, Scraper.Keywords[2], 0);
    Lacks(key, Scraper.Keywords[3], 5);
    Lacks(key, Scraper.Keywords[4], 0);
    Scraper.LooksLikeAttendanceIff(data);
  }

  // ------------------------------------------------------- field mappings

  /** The patterns discover_field_mappings tries for each canonical field, in
      order. */
  const FieldPatterns: seq<(string, seq<string>)> := [
    ("subject", ["subject", "subjectname", "coursename", "course"]),
    ("subject_code", ["subjectcode", "coursecode", "code", "subcode"]),
    ("present", ["present", "presentcount", "attended", "attendedclasses"]),
    ("absent", ["absent", "absentcount", "missed", "missedclasses"]),
    ("total", ["total", "totalclasses", "conducted", "session", "classes"]),
    ("percentage", ["percentage", "percent", "attendanceper", "attendancepercent"]),
    ("faculty", ["faculty", "facultname", "teacher", "instructor", "facultyname"]),
    ("term", ["term", "termname", "semester", "sem"])]

  /** No canonical field is listed twice, as in the source's dict literal. */
  lemma FieldPatternsDistinct()
    ensures Dicts.DistinctKeys(FieldPatterns)
  {
    var names := Dicts.Keys(FieldPatterns);
    assert names == ["subject", "subject_code", "present", "absent", "total", "percentage", "faculty", "term"];
    forall i, j | 0 <= i < j < 8
      ensures names[i] != names[j]
    {
      assert |names[i]| != |names[j]| || names[i][0] != names[j][0];
    }
  }

  /** `{k.lower(): k for k in keys}`: every lower-cased key, at the place
      where it first appeared, with the last original key that lowers to
      it. */
  function LowerIndex(keys: seq<string>): (d: seq<(string, string)>)
    ensures Dicts.DistinctKeys(d)
    ensures forall i :: 0 <= i < |d| ==> d[i].0 == Lower(d[i].1)
    ensures forall i :: 0 <= i < |d| ==> d[i].1 in keys
    ensures forall k :: k in keys ==> Dicts.HasKey(d, Lower(k))
    ensures forall v :: v in Dicts.Values(d) ==> v in keys
  {
    if keys == [] then []
    else
      var init, last := keys[..|keys| - 1], keys[|keys| - 1];
      assert keys == init + [last];
      var m := LowerIndex(init);
      IndexPairs(init, last, m);
      IndexCovers(init, last, m);
      Dicts.Put(m, Lower(last), last)
  }

  /** One more key keeps every pair of the index a lowered key with an
      original key. */
  lemma IndexPairs(init: seq<string>, last: string, m: seq<(string, string)>)
    requires forall i :: 0 <= i < |m| ==> m[i].0 == Lower(m[i].1) && m[i].1 in init
    ensures var d := Dicts.Put(m, Lower(last), last);
      && (forall i :: 0 <= i < |d| ==> d[i].0 == Lower(d[i].1))
      && (forall i :: 0 <= i < |d| ==> d[i].1 in init + [last])
      && (forall v :: v in Dicts.Values(d) ==> v in init + [last])
  {
    var d := Dicts.Put(m, Lower(last), last);
    forall i | 0 <= i < |d|
      ensures d[i].0 == Lower(d[i].1) && d[i].1 in init + [last]
    {
      if d[i] != (Lower(last), last) {
        assert d[i] == m[i];
      }
    }
    forall v | v in Dicts.Values(d)
      ensures v in init + [last]
    {
      var i :| 0 <= i < |d| && Dicts.Values(d)[i] == v;
    }
  }

  /** One more key keeps every key's lowered form in the index. */
  lemma IndexCovers(init: seq<string>, last: string, m: seq<(string, string)>)
    requires forall k :: k in init ==> Dicts.HasKey(m, Lower(k))
    ensures forall k :: k in init + [last] ==> Dicts.HasKey(Dicts.Put(m, Lower(last), last), Lower(k))
  {
    var d := Dicts.Put(m, Lower(last), last);
    forall k | k in init + [last]
      ensures Dicts.HasKey(d, Lower(k))
    {
      if k in init {
        var i :| 0 <= i < |m| && m[i].0 == Lower(k);
        assert d[i].0 == Lower(k);
      } else {
        assert Dicts.Get(d, Lower(last)).Some?;
      }
    }
  }

  /** The inner loop over the lowered keys: the original key of the first
      lowered key that contains the pattern. */
  function KeyFor(index: seq<(string, string)>, pattern: string): (r: Option<string>)
    ensures r.None? <==> forall i :: 0 <= i < |index| ==> !Contains(index[i].0, pattern)
    ensures r.Some? ==> exists i :: (0 <= i < |index| && Contains(index[i].0, pattern) && r.value == index[i].1
      && forall j :: 0 <= j < i ==> !Contains(index[j].0, pattern))
  {
    match Seqs.First(index, (e: (string, string)) => Contains(e.0, pattern))
    case Some(i) => Some(index[i].1)
    case None => None
  }

  /** The loop over one field's patterns: the key found for the first pattern
      that some key matches. */
  function FieldKey(index: seq<(string, string)>, patterns: seq<string>): (r: Option<string>)
    ensures r.None? <==> forall i :: 0 <= i < |patterns| ==> KeyFor(index, patterns[i]).None?
    ensures r.Some? ==> exists i :: (0 <= i < |patterns| && KeyFor(index, patterns[i]) == r
      && forall j :: 0 <= j < i ==> KeyFor(index, patterns[j]).None?)
  {
    match Seqs.First(patterns, (p: string) => KeyFor(index, p).Some?)
    case Some(i) => KeyFor(index, patterns[i])
    case None => None
  }

  /** The outer loop over the fields: `mappings[field] = key` for every field
      some pattern finds a key for. */
  function MapFields(index: seq<(string, string)>, fields: seq<(string, seq<string>)>): (r: seq<(string, string)>)
    ensures Dicts.DistinctKeys(r)
    ensures forall i :: 0 <= i < |r| ==> r[i].0 in Dicts.Keys(fields) && r[i].1 in Dicts.Values(index)
  {
    if fields == [] then []
    else
      var init, last := fields[..|fields| - 1], fields[|fields| - 1];
      var m := MapFields(index, init);
      var found := FieldKey(index, last.1);
      FieldKeyFromIndex(index, last.1);
      MappedStep(index, fields, init, last, m, found);
      if found.Some? then Dicts.Put(m, last.0, found.value) else m
  }

  /** Whatever the patterns find is an original key of the index. */
  lemma FieldKeyFromIndex(index: seq<(string, string)>, patterns: seq<string>)
    ensures FieldKey(index, patterns).Some? ==> FieldKey(index, patterns).value in Dicts.Values(index)
  {
    var r := FieldKey(index, patterns);
    if r.Some? {
      var i :| 0 <= i < |patterns| && KeyFor(index, patterns[i]) == r;
      var j :| 0 <= j < |index| && r.value == index[j].1;
      assert Dicts.Values(index)[j] == r.value;
    }
  }

  /** One more field keeps every mapping a field name with an original key. */
  lemma MappedStep(index: seq<(string, string)>, fields: seq<(string, seq<string>)>,
                   init: seq<(string, seq<string>)>, last: (string, seq<string>),
                   m: seq<(string, string)>, found: Option<string>)
    requires fields != [] && init == fields[..|fields| - 1] && last == fields[|fields| - 1]
    requires forall i :: 0 <= i < |m| ==> m[i].0 in Dicts.Keys(init) && m[i].1 in Dicts.Values(index)
    requires found.Some? ==> found.value in Dicts.Values(index)
    ensures var d := if found.Some? then Dicts.Put(m, last.0, found.value) else m;
      forall i :: 0 <= i < |d| ==> d[i].0 in Dicts.Keys(fields) && d[i].1 in Dicts.Values(index)
  {
    var all := Dicts.Keys(fields);
    assert forall j :: 0 <= j < |init| ==> Dicts.Keys(init)[j] == all[j];
    assert all[|init|] == last.0;
    assert forall i :: 0 <= i < |m| ==> m[i].0 in all;
    if found.Some? {
      var d := Dicts.Put(m, last.0, found.value);
      forall i | 0 <= i < |d|
        ensures d[i].0 in all && d[i].1 in Dicts.Values(index)
      {
        if d[i] != (last.0, found.value) {
          assert d[i] == m[i];
        }
      }
    }
  }

  /** With distinct field names, each field is mapped to what its patterns
      find, and is missing when they find nothing. */
  lemma {:induction false} MapFieldsGet(index: seq<(string, string)>, fields: seq<(string, seq<string>)>)
    requires Dicts.DistinctKeys(fields)
    ensures forall j :: 0 <= j < |fields| ==> Dicts.Get(MapFields(index, fields), fields[j].0) == FieldKey(index, fields[j].1)
  {
    if fields != [] {
      var n := |fields| - 1;
      Dicts.DistinctPrefix(fields, n);
      MapFieldsGet(index, fields[..n]);
      GetLast(index, fields);
      GetEarlier(index, fields);
      Combine(index, fields, fields[..n], MapFields(index, fields), MapFields(index, fields[..n]));
    }
  }

  /** The lookups after the last field, assembled from those before it. */
  lemma Combine(index: seq<(string, string)>, fields: seq<(string, seq<string>)>, init: seq<(string, seq<string>)>,
                r: seq<(string, string)>, m: seq<(string, string)>)
    requires fields != [] && init == fields[..|fields| - 1]
    requires forall j :: 0 <= j < |init| ==> Dicts.Get(m, init[j].0) == FieldKey(index, init[j].1)
    requires forall j :: 0 <= j < |init| ==> Dicts.Get(r, fields[j].0) == Dicts.Get(m, fields[j].0)
    requires Dicts.Get(r, fields[|init|].0) == FieldKey(index, fields[|init|].1)
    ensures forall j :: 0 <= j < |fields| ==> Dicts.Get(r, fields[j].0) == FieldKey(index, fields[j].1)
  {
    forall j | 0 <= j < |fields|
      ensures Dicts.Get(r, fields[j].0) == FieldKey(index, fields[j].1)
    {
      if j < |init| {
        assert init[j] == fields[j];
      } else {
        assert j == |init|;
      }
    }
  }

  /** The field added last is mapped to what its patterns find. */
  lemma GetLast(index: seq<(string, string)>, fields: seq<(string, seq<string>)>)
    requires fields != [] && Dicts.DistinctKeys(fields)
    ensures var last := fields[|fields| - 1];
      Dicts.Get(MapFields(index, fields), last.0) == FieldKey(index, last.1)
  {
    var n := |fields| - 1;
    var m := MapFields(index, fields[..n]);
    if FieldKey(index, fields[n].1).None? {
      assert !Dicts.HasKey(m, fields[n].0);
    }
  }

  /** Adding a field leaves the lookups of the other fields alone. */
  lemma GetEarlier(index: seq<(string, string)>, fields: seq<(string, seq<string>)>)
    requires fields != [] && Dicts.DistinctKeys(fields)
    ensures forall j :: 0 <= j < |fields| - 1 ==>
      Dicts.Get(MapFields(index, fields), fields[j].0) == Dicts.Get(MapFields(index, fields[..|fields| - 1]), fields[j].0)
  {
  }

  /** discover_field_mappings: nothing for an empty sample, None where the
      first record is not an object (calling `.keys()` on it raises),
      otherwise a dict from canonical field names to keys of the first
      record. */
  function DiscoverFieldMappings(sample: seq<Value>): (r: Option<seq<(string, string)>>)
    ensures sample == [] ==> r == Some([])
    ensures r.None? <==> sample != [] && !sample[0].Obj?
    ensures r.Some? ==> Dicts.DistinctKeys(r.value)
    ensures r.Some? ==> forall i :: 0 <= i < |r.value| ==> r.value[i].0 in Dicts.Keys(FieldPatterns)
    ensures r.Some? && sample != [] ==>
      forall i :: 0 <= i < |r.value| ==> r.value[i].1 in Dicts.Keys(sample[0].fields)
  {
    if sample == [] then Some([])
    else match sample[0]
      case Obj(f) => Some(MapFields(LowerIndex(Dicts.Keys(f)), FieldPatterns))
      case _ => None
  }

  /** Some key of the record contains the pattern once lower-cased. */
  predicate KeyMatches(f: seq<(string, Value)>, pattern: string) {
    exists i :: 0 <= i < |f| && Contains(Lower(f[i].0), pattern)
  }

  /** A pattern finds a key in the lowered index exactly when it occurs in
      some lower-cased key of the record, and the key found is one of those. */
  lemma KeyForMatches(f: seq<(string, Value)>, pattern: string)
    ensures KeyFor(LowerIndex(Dicts.Keys(f)), pattern).Some? <==> KeyMatches(f, pattern)
    ensures KeyFor(LowerIndex(Dicts.Keys(f)), pattern).Some? ==>
      Contains(Lower(KeyFor(LowerIndex(Dicts.Keys(f)), pattern).value), pattern)
  {
    if KeyMatches(f, pattern) {
      KeyForFinds(f, pattern);
    }
    if KeyFor(LowerIndex(Dicts.Keys(f)), pattern).Some? {
      KeyForSound(f, pattern);
    }
  }

  lemma KeyForFinds(f: seq<(string, Value)>, pattern: string)
    requires KeyMatches(f, pattern)
    ensures KeyFor(LowerIndex(Dicts.Keys(f)), pattern).Some?
  {
    var keys := Dicts.Keys(f);
    var i :| 0 <= i < |f| && Contains(Lower(f[i].0), pattern);
    assert keys[i] == f[i].0;
    assert keys[i] in keys;
    FoundIn(LowerIndex(keys), Lower(keys[i]), pattern);
  }

  /** A pattern contained in a key of the index finds some key. */
  lemma FoundIn(index: seq<(string, string)>, lowered: string, pattern: string)
    requires Dicts.HasKey(index, lowered) && Contains(lowered, pattern)
    ensures KeyFor(index, pattern).Some?
  {
    var j :| 0 <= j < |index| && index[j].0 == lowered;
  }

  lemma KeyForSound(f: seq<(string, Value)>, pattern: string)
    requires KeyFor(LowerIndex(Dicts.Keys(f)), pattern).Some?
    ensures KeyMatches(f, pattern)
    ensures Contains(Lower(KeyFor(LowerIndex(Dicts.Keys(f)), pattern).value), pattern)
  {
    var keys := Dicts.Keys(f);
    var i := SoundIn(LowerIndex(keys), keys, pattern);
    assert keys[i] == f[i].0;
  }

  /** No two keys of the record lower to the same string. */
  predicate LoweredDistinct(keys: seq<string>) {
    forall i, j :: 0 <= i < j < |keys| ==> Lower(keys[i]) != Lower(keys[j])
  }

  /** The index pairs every key of the record, in record order, with its
      lowered form. */
  predicate InOrder(index: seq<(string, string)>, keys: seq<string>) {
    |index| == |keys| && forall i :: 0 <= i < |keys| ==> index[i] == (Lower(keys[i]), keys[i])
  }

  /** When no two keys lower alike, the index keeps the record's order. */
  lemma {:induction false} LowerIndexInOrder(keys: seq<string>)
    requires LoweredDistinct(keys)
    ensures InOrder(LowerIndex(keys), keys)
  {
    if keys != [] {
      var init, last := keys[..|keys| - 1], keys[|keys| - 1];
      DistinctInit(keys, init, last);
      LowerIndexInOrder(init);
      var m := LowerIndex(init);
      NotIndexed(init, last, m);
      Dicts.PutNew(m, Lower(last), last);
      IndexAppends(keys, init, last, m);
    }
  }

  lemma DistinctInit(keys: seq<string>, init: seq<string>, last: string)
    requires LoweredDistinct(keys) && keys != []
    requires init == keys[..|keys| - 1] && last == keys[|keys| - 1]
    ensures LoweredDistinct(init)
    ensures forall i :: 0 <= i < |init| ==> Lower(init[i]) != Lower(last)
  {
    forall i, j | 0 <= i < j < |init|
      ensures Lower(init[i]) != Lower(init[j])
    {
      assert init[i] == keys[i] && init[j] == keys[j];
    }
    forall i | 0 <= i < |init|
      ensures Lower(init[i]) != Lower(last)
    {
      assert init[i] == keys[i];
    }
  }

  lemma IndexAppends(keys: seq<string>, init: seq<string>, last: string, m: seq<(string, string)>)
    requires keys != [] && init == keys[..|keys| - 1] && last == keys[|keys| - 1]
    requires InOrder(m, init)
    ensures InOrder(m + [(Lower(last), last)], keys)
  {
    var d := m + [(Lower(last), last)];
    assert |d| == |keys|;
    forall i | 0 <= i < |keys|
      ensures d[i] == (Lower(keys[i]), keys[i])
    {
      if i < |init| {
        assert d[i] == m[i] && keys[i] == init[i];
        assert m[i] == (Lower(init[i]), init[i]);
      } else {
        assert i == |init| && d[i] == (Lower(last), last) && keys[i] == last;
      }
    }
  }

  lemma NotIndexed(init: seq<string>, last: string, m: seq<(string, string)>)
    requires InOrder(m, init)
    requires forall i :: 0 <= i < |init| ==> Lower(init[i]) != Lower(last)
    ensures !Dicts.HasKey(m, Lower(last))
  {
    forall j | 0 <= j < |m|
      ensures m[j].0 != Lower(last)
    {
      assert m[j] == (Lower(init[j]), init[j]);
    }
  }

  /** The `i`-th key of the record is the first whose lowered form contains
      the pattern. */
  predicate EarliestMatch(f: seq<(string, Value)>, pattern: string, i: int) {
    && 0 <= i < |f|
    && Contains(Lower(f[i].0), pattern)
    && forall j :: 0 <= j < i ==> !Contains(Lower(f[j].0), pattern)
  }

  /** In the mappings `r`, a field `name` that is present is bound to the
      earliest key of the record that contains the first of its patterns any
      key contains. */
  predicate BoundEarliest(f: seq<(string, Value)>, r: seq<(string, string)>, name: string, patterns: seq<string>) {
    Dicts.HasKey(r, name) ==>
      exists p, i :: (0 <= p < |patterns| && 0 <= i < |f| && EarliestMatch(f, patterns[p], i)
        && Dicts.Get(r, name) == Some(f[i].0)
        && forall q :: 0 <= q < p ==> !KeyMatches(f, patterns[q]))
  }

  /** What the patterns find in an in-order index is the earliest key
      containing the first pattern any key contains. */
  lemma FoundEarliest(f: seq<(string, Value)>, index: seq<(string, string)>, patterns: seq<string>)
    requires InOrder(index, Dicts.Keys(f))
    requires FieldKey(index, patterns).Some?
    ensures exists p, i :: (0 <= p < |patterns| && EarliestMatch(f, patterns[p], i)
      && FieldKey(index, patterns) == Some(f[i].0)
      && forall q :: 0 <= q < p ==> !KeyMatches(f, patterns[q]))
  {
    var keys := Dicts.Keys(f);
    var found := FieldKey(index, patterns);
    var p :| 0 <= p < |patterns| && KeyFor(index, patterns[p]) == found
      && forall j :: 0 <= j < p ==> KeyFor(index, patterns[j]).None?;
    var i :| 0 <= i < |index| && Contains(index[i].0, patterns[p]) && found.value == index[i].1
      && forall j :: 0 <= j < i ==> !Contains(index[j].0, patterns[p]);
    assert index[i] == (Lower(keys[i]), keys[i]);
    forall j | 0 <= j < i
      ensures !Contains(Lower(f[j].0), patterns[p])
    {
      assert index[j] == (Lower(keys[j]), keys[j]);
    }
    forall q | 0 <= q < p
      ensures !KeyMatches(f, patterns[q])
    {
      forall j | 0 <= j < |f|
        ensures !Contains(Lower(f[j].0), patterns[q])
      {
        assert index[j] == (Lower(keys[j]), keys[j]);
      }
    }
    assert EarliestMatch(f, patterns[p], i);
  }

  /** When no two keys lower alike, every mapped field is bound to the
      earliest key that contains its first matching pattern. */
  lemma EarliestKey(f: seq<(string, Value)>, fields: seq<(string, seq<string>)>, n: nat)
    requires Dicts.DistinctKeys(fields) && n < |fields|
    requires LoweredDistinct(Dicts.Keys(f))
    ensures BoundEarliest(f, MapFields(LowerIndex(Dicts.Keys(f)), fields), fields[n].0, fields[n].1)
  {
    LowerIndexInOrder(Dicts.Keys(f));
    EarliestIn(f, LowerIndex(Dicts.Keys(f)), fields, n);
  }

  lemma EarliestIn(f: seq<(string, Value)>, index: seq<(string, string)>, fields: seq<(string, seq<string>)>, n: nat)
    requires Dicts.DistinctKeys(fields) && n < |fields|
    requires InOrder(index, Dicts.Keys(f))
    ensures BoundEarliest(f, MapFields(index, fields), fields[n].0, fields[n].1)
  {
    MapFieldsGet(index, fields);
    assert Dicts.Get(MapFields(index, fields), fields[n].0) == FieldKey(index, fields[n].1);
    if FieldKey(index, fields[n].1).Some? {
      FoundEarliest(f, index, fields[n].1);
    }
  }

  /** The key a pattern finds in an index of lowered keys is an original key
      whose lowered form contains the pattern. */
  lemma SoundIn(index: seq<(string, string)>, keys: seq<string>, pattern: string) returns (i: nat)
    requires forall j :: 0 <= j < |index| ==> index[j].0 == Lower(index[j].1)
    requires forall j :: 0 <= j < |index| ==> index[j].1 in keys
    requires KeyFor(index, pattern).Some?
    ensures i < |keys| && keys[i] == KeyFor(index, pattern).value && Contains(Lower(keys[i]), pattern)
  {
    var j :| 0 <= j < |index| && Contains(index[j].0, pattern) && KeyFor(index, pattern).value == index[j].1;
    var k := index[j].1;
    assert k in keys;
    i :| i < |keys| && keys[i] == k;
  }

  /** In the mappings `r`, the field `name` is present exactly when one of
      its patterns occurs in some lower-cased key of the record, and it is
      mapped to a key that contains, lower-cased, the first such pattern. */
  predicate MappedByPatterns(f: seq<(string, Value)>, r: seq<(string, string)>, name: string, patterns: seq<string>) {
    && (Dicts.HasKey(r, name) <==> exists p :: 0 <= p < |patterns| && KeyMatches(f, patterns[p]))
    && (Dicts.HasKey(r, name) ==>
          exists p :: 0 <= p < |patterns| && Contains(Lower(Dicts.Get(r, name).value), patterns[p])
            && forall q :: 0 <= q < p ==> !KeyMatches(f, patterns[q]))
  }

  /** Every field of a list with distinct names is mapped by its patterns. */
  lemma MappedIff(f: seq<(string, Value)>, fields: seq<(string, seq<string>)>, n: nat)
    requires Dicts.DistinctKeys(fields) && n < |fields|
    ensures MappedByPatterns(f, MapFields(LowerIndex(Dicts.Keys(f)), fields), fields[n].0, fields[n].1)
  {
    var index := LowerIndex(Dicts.Keys(f));
    var patterns := fields[n].1;
    MapFieldsGet(index, fields);
    assert Dicts.Get(MapFields(index, fields), fields[n].0) == FieldKey(index, patterns);
    forall p | 0 <= p < |patterns|
      ensures KeyFor(index, patterns[p]).Some? <==> KeyMatches(f, patterns[p])
      ensures KeyFor(index, patterns[p]).Some? ==> Contains(Lower(KeyFor(index, patterns[p]).value), patterns[p])
    {
      KeyForMatches(f, patterns[p]);
    }
  }

  /** discover_field_mappings maps a canonical field exactly when one of its
      patterns occurs in some lower-cased key of the first record, and to a
      key that contains, lower-cased, the first such pattern. */
  lemma FieldMappedIff(sample: seq<Value>, n: nat)
    requires sample != [] && sample[0].Obj? && n < |FieldPatterns|
    ensures MappedByPatterns(sample[0].fields, DiscoverFieldMappings(sample).value, FieldPatterns[n].0, FieldPatterns[n].1)
  {
    FieldPatternsDistinct();
    MappedIff(sample[0].fields, FieldPatterns, n);
  }

  /** discover_field_mappings binds a field to the earliest key of the first
      record that contains the field's first matching pattern, when no two
      keys of that record lower alike. */
  lemma FieldEarliestKey(sample: seq<Value>, n: nat)
    requires sample != [] && sample[0].Obj? && n < |FieldPatterns|
    requires LoweredDistinct(Dicts.Keys(sample[0].fields))
    ensures BoundEarliest(sample[0].fields, DiscoverFieldMappings(sample).value, FieldPatterns[n].0, FieldPatterns[n].1)
  {
    FieldPatternsDistinct();
    EarliestKey(sample[0].fields, FieldPatterns, n);
  }

  /** Only the first record of the sample is read. */
  lemma FirstRecordOnly(a: seq<Value>, b: seq<Value>)
    requires a != [] && b != [] && a[0] == b[0]
    ensures DiscoverFieldMappings(a) == DiscoverFieldMappings(b)
  {
  }
}

=== FILE: json.dfy ===
/** Decoded JSON values as the Python code sees them, with the two
    language-level operations the normalisers apply to them: truthiness
    (`if v:`) and integer coercion (`int(v)`). Objects are dicts in the sense
    of module Dicts; their keys are assumed distinct, as `json.loads` yields. */
module Json {
  import opened Wrappers
  import opened Text
  import Dicts

  datatype Value =
    | Null
    | Bool(b: bool)
    | Int(i: int)
    | Float(f: real)
    | Str(s: string)
    | List(items: seq<Value>)
    | Obj(fields: seq<(string, Value)>)

  /** Python truthiness: None, False, 0, 0.0 and empty strings, lists and
      dicts are false; everything else is true. */
  predicate Truthy(v: Value) {
    match v
    case Null => false
    case Bool(b) => b
    case Int(i) => i != 0
    case Float(f) => f != 0.0
    case Str(s) => s != ""
    case List(items) => items != []
    case Obj(fields) => fields != []
  }

  /** `int(x)` for a float: truncation toward zero. */
  function Trunc(x: real): (n: int)
    ensures 0.0 <= x ==> 0 <= n && n as real <= x < n as real + 1.0
    ensures x < 0.0 ==> n <= 0 && n as real - 1.0 < x <= n as real
  {
    if x >= 0.0 then x.Floor else -((-x).Floor)
  }

  /** Python's `int(v)`: None when it raises. Integers pass through, booleans
      become 0/1, floats are truncated, strings are parsed as decimals;
      None, lists and dicts raise a TypeError. */
  function IntOf(v: Value): (r: Option<int>)
    ensures v.Int? ==> r == Some(v.i)
    ensures v.Null? || v.List? || v.Obj? ==> r.None?
    ensures v.Str? ==> r == ParseInt(v.s)
  {
    match v
    case Int(i) => Some(i)
    case Bool(b) => Some(if b then 1 else 0)
    case Float(f) => Some(Trunc(f))
    case Str(s) => ParseInt(s)
    case _ => None
  }

  /** A count sent as a decimal string coerces to the same count. */
  lemma IntOfDecimalString(n: int)
    ensures IntOf(Str(Decimal(n))) == Some(n)
  {
    ParseDecimal(n);
  }

  /** `d.get(key, default)` on a decoded object. */
  function Member(fields: seq<(string, Value)>, key: string, default: Value): Value {
    Dicts.GetOr(fields, key, default)
  }

  /** `d.get(first, d.get(second, default))`: the first key present wins. */
  function Probe(fields: seq<(string, Value)>, first: string, second: string, default: Value): (r: Value)
    ensures Dicts.HasKey(fields, first) ==> Some(r) == Dicts.Get(fields, first)
    ensures !Dicts.HasKey(fields, first) && Dicts.HasKey(fields, second) ==> Some(r) == Dicts.Get(fields, second)
    ensures !Dicts.HasKey(fields, first) && !Dicts.HasKey(fields, second) ==> r == default
  {
    Member(fields, first, Member(fields, second, default))
  }

  /** The keys of an object, lower-cased (`[k.lower() for k in d.keys()]`). */
  function LoweredKeys(fields: seq<(string, Value)>): (r: seq<string>)
    ensures |r| == |fields| && forall i :: 0 <= i < |fields| ==> r[i] == Lower(fields[i].0)
  {
    seq(|fields|, i requires 0 <= i < |fields| => Lower(fields[i].0))
  }

  /** `any(word in k for k in keys)` */
  predicate AnyKeyContains(keys: seq<string>, word: string) {
    exists i :: 0 <= i < |keys| && Contains(keys[i], word)
  }
}

=== FILE: records.dfy ===
/** The canonical subject record that both attendance normalisers produce
    (the dicts built at backend/app.py:199-207 and
    unitrack/core/scraper.py:213-222), and the percentage they derive. */
module Records {
  import opened Wrappers
  import opened Json

  /** `term` is None for the backend's records, which have no such key.
      `subject` and `subjectCode` are passed through from the upstream record
      unchanged, so they may be any JSON value. */
  datatype Subject = Subject(
    subject: Value,
    subjectCode: Value,
    present: int,
    absent: int,
    total: int,
    percentage: real,
    faculty: string,
    term: Option<Value>)

  /** `(present / total * 100) if total > 0 else 0`, exactly (the source then
      rounds to two places, which is not modelled). */
  function Percentage(present: int, total: int): (p: real)
    ensures total <= 0 ==> p == 0.0
    ensures total > 0 ==> p * total as real == present as real * 100.0
    ensures total > 0 && 0 <= present <= total ==> 0.0 <= p <= 100.0
  {
    if total > 0 then present as real / total as real * 100.0 else 0.0
  }

  /** The invariant every normalised record satisfies. */
  predicate WellFormed(s: Subject) {
    && s.total == s.present + s.absent
    && s.percentage == Percentage(s.present, s.total)
  }

  /** The record both normalisers build from the two counts: the total is
      present + absent (never a total field of the raw record), and the
      percentage is derived from them. */
  function Normalised(subject: Value, subjectCode: Value, present: int, absent: int,
                      faculty: string, term: Option<Value>): (s: Subject)
    ensures WellFormed(s)
    ensures s.subject == subject && s.subjectCode == subjectCode
    ensures s.present == present && s.absent == absent
    ensures s.faculty == faculty && s.term == term
  {
    var total := present + absent;
    Subject(subject, subjectCode, present, absent, total, Percentage(present, total), faculty, term)
  }
}

=== FILE: scraper.dfy ===
/** unitrack/core/scraper.py: recognising an attendance payload among the
    captured responses, and normalising its records through the configured
    field mappings. */
module Scraper {
  import opened Wrappers
  import opened Text
  import opened Json
  import Dicts
  import Seqs
  import Records
  import Config

  // ------------------------------------------------------------- normaliser

  /** `mappings.get(field, fallback)`: the record key a canonical field is
      read from. */
  function MappedKey(mappings: seq<(string, string)>, field: string, fallback: string): string {
    Dicts.GetOr(mappings, field, fallback)
  }

  /** `int(item.get(key, 0))` */
  function CountAt(f: seq<(string, Value)>, key: string): Option<int> {
    IntOf(Member(f, key, Int(0)))
  }

  /** The record keys the canonical fields are read from. */
  datatype FieldKeys = FieldKeys(
    subject: string, subjectCode: string, present: string, absent: string,
    faculty: string, term: string)

  /** The `mappings.get(field, fallback)` lookups of _process_attendance. The
      "total" mapping is never read: the total is present + absent. */
  function KeysOf(mappings: seq<(string, string)>): (k: FieldKeys)
    ensures Dicts.HasKey(mappings, "present") ==> Dicts.Get(mappings, "present") == Some(k.present)
    ensures !Dicts.HasKey(mappings, "present") ==> k.present == "presentCount"
    ensures Dicts.HasKey(mappings, "absent") ==> Dicts.Get(mappings, "absent") == Some(k.absent)
    ensures !Dicts.HasKey(mappings, "absent") ==> k.absent == "absentCount"
    ensures Dicts.HasKey(mappings, "subject") ==> Dicts.Get(mappings, "subject") == Some(k.subject)
    ensures !Dicts.HasKey(mappings, "subject") ==> k.subject == "subject"
    ensures Dicts.HasKey(mappings, "subject_code") ==> Dicts.Get(mappings, "subject_code") == Some(k.subjectCode)
    ensures !Dicts.HasKey(mappings, "subject_code") ==> k.subjectCode == "subjectCode"
    ensures Dicts.HasKey(mappings, "faculty") ==> Dicts.Get(mappings, "faculty") == Some(k.faculty)
    ensures !Dicts.HasKey(mappings, "faculty") ==> k.faculty == "facultName"
    ensures Dicts.HasKey(mappings, "term") ==> Dicts.Get(mappings, "term") == Some(k.term)
    ensures !Dicts.HasKey(mappings, "term") ==> k.term == "termName"
  {
    FieldKeys(
      MappedKey(mappings, "subject", "subject"),
      MappedKey(mappings, "subject_code", "subjectCode"),
      MappedKey(mappings, "present", "presentCount"),
      MappedKey(mappings, "absent", "absentCount"),
      MappedKey(mappings, "faculty", "facultName"),
      MappedKey(mappings, "term", "termName"))
  }

  /** The body of the loop in _process_attendance for one raw record, with
      the keys already looked up: the normalised record, or None when any
      step raises (a record that is not an object, a count `int()` rejects, a
      faculty that is not a string). */
  function RecordWith(keys: FieldKeys, item: Value): (r: Option<Records.Subject>)
    ensures r.Some? <==>
      && item.Obj?
      && CountAt(item.fields, keys.present).Some?
      && CountAt(item.fields, keys.absent).Some?
      && Member(item.fields, keys.faculty, Str("")).Str?
    ensures r.Some? ==>
      && Records.WellFormed(r.value)
      && r.value.present == CountAt(item.fields, keys.present).value
      && r.value.absent == CountAt(item.fields, keys.absent).value
      && r.value.subject == Member(item.fields, keys.subject, Str("Unknown"))
      && r.value.subjectCode == Member(item.fields, keys.subjectCode, Str(""))
      && r.value.faculty == Strip(Member(item.fields, keys.faculty, Str("")).s)
      && r.value.term == Some(Member(item.fields, keys.term, Str("")))
  {
    match item
    case Obj(f) =>
      var present := CountAt(f, keys.present);
      var absent := CountAt(f, keys.absent);
      var faculty := Member(f, keys.faculty, Str(""));
      if present.None? || absent.None? || !faculty.Str? then None
      else
        Some(Records.Normalised(
          Member(f, keys.subject, Str("Unknown")),
          Member(f, keys.subjectCode, Str("")),
          present.value, absent.value,
          Strip(faculty.s),
          Some(Member(f, keys.term, Str("")))))
    case _ => None
  }

  /** The body of the loop in _process_attendance for one raw record: every
      canonical field is read from the key the mappings name for it, or from
      the hard-coded fallback key. */
  function ScraperRecord(mappings: seq<(string, string)>, item: Value): (r: Option<Records.Subject>)
    ensures !item.Obj? ==> r.None?
    ensures item.Obj? ==> (r.Some? <==>
      && CountAt(item.fields, MappedKey(mappings, "present", "presentCount")).Some?
      && CountAt(item.fields, MappedKey(mappings, "absent", "absentCount")).Some?
      && Member(item.fields, MappedKey(mappings, "faculty", "facultName"), Str("")).Str?)
    ensures item.Obj? && r.Some? ==>
      && r.value.present == CountAt(item.fields, MappedKey(mappings, "present", "presentCount")).value
      && r.value.absent == CountAt(item.fields, MappedKey(mappings, "absent", "absentCount")).value
      && r.value.subject == Member(item.fields, MappedKey(mappings, "subject", "subject"), Str("Unknown"))
      && r.value.subjectCode == Member(item.fields, MappedKey(mappings, "subject_code", "subjectCode"), Str(""))
      && r.value.faculty == Strip(Member(item.fields, MappedKey(mappings, "faculty", "facultName"), Str("")).s)
      && r.value.term == Some(Member(item.fields, MappedKey(mappings, "term", "termName"), Str("")))
  {
    RecordWith(KeysOf(mappings), item)
  }

  /** _process_attendance: every raw record that normalises, in order; the
      others are skipped. */
  function ProcessAttendance(mappings: seq<(string, string)>, raw: seq<Value>): (r: seq<Records.Subject>)
    ensures |r| <= |raw|
    ensures forall s :: s in r ==> Records.WellFormed(s) && s.term.Some?
    ensures forall s :: s in r ==> exists i :: 0 <= i < |raw| && ScraperRecord(mappings, raw[i]) == Some(s)
    ensures forall i :: 0 <= i < |raw| && ScraperRecord(mappings, raw[i]).Some? ==>
      ScraperRecord(mappings, raw[i]).value in r
  {
    Seqs.FilterMap((item: Value) => ScraperRecord(mappings, item), raw)
  }

  /** One raw record gives its normalised record, or nothing when it is
      skipped; with ProcessAttendanceAppend this fixes the output of every
      batch. */
  lemma ProcessAttendanceSingle(mappings: seq<(string, string)>, item: Value)
    ensures ProcessAttendance(mappings, [item]) ==
      (if ScraperRecord(mappings, item).Some? then [ScraperRecord(mappings, item).value] else [])
  {
    Seqs.FilterMapSingle((item: Value) => ScraperRecord(mappings, item), item);
  }

  /** The records of two captured batches are normalised independently and
      come out in batch order. */
  lemma ProcessAttendanceAppend(mappings: seq<(string, string)>, a: seq<Value>, b: seq<Value>)
    ensures ProcessAttendance(mappings, a + b) == ProcessAttendance(mappings, a) + ProcessAttendance(mappings, b)
  {
    Seqs.FilterMapAppend((item: Value) => ScraperRecord(mappings, item), a, b);
  }

  /** A record that has none of the mapped keys is kept, with both counts 0,
      so also a total and a percentage of 0. */
  lemma EmptyRecordKept(mappings: seq<(string, string)>)
    ensures ScraperRecord(mappings, Obj([])) ==
      Some(Records.Subject(Str("Unknown"), Str(""), 0, 0, 0, 0.0, "", Some(Str(""))))
  {
    assert Strip("") == "";
  }

  /** Whatever the "total" field is mapped to, every record reads the same
      keys. */
  lemma TotalMappingIgnored(mappings: seq<(string, string)>, key: string)
    ensures KeysOf(Dicts.Put(mappings, "total", key)) == KeysOf(mappings)
  {
    var m := Dicts.Put(mappings, "total", key);
    MappedKeyBesideTotal(mappings, key, "subject", "subject");
    MappedKeyBesideTotal(mappings, key, "subject_code", "subjectCode");
    MappedKeyBesideTotal(mappings, key, "present", "presentCount");
    MappedKeyBesideTotal(mappings, key, "absent", "absentCount");
    MappedKeyBesideTotal(mappings, key, "faculty", "facultName");
    MappedKeyBesideTotal(mappings, key, "term", "termName");
  }

  lemma MappedKeyBesideTotal(mappings: seq<(string, string)>, key: string, field: string, fallback: string)
    requires field != "total"
    ensures MappedKey(Dicts.Put(mappings, "total", key), field, fallback) == MappedKey(mappings, field, fallback)
  {
    var m := Dicts.Put(mappings, "total", key);
    assert Dicts.Get(m, field) == Dicts.Get(mappings, field);
  }

  /** The fallbacks in _process_attendance are the default field mappings of
      the configuration: with the defaults every field is read from the same
      key as with no mappings at all. */
  lemma DefaultMappingsAreFallbacks()
    ensures KeysOf(Config.DefaultFieldMappings) == KeysOf([])
  {
    DefaultKey("subject", "subject", 0);
    DefaultKey("subject_code", "subjectCode", 1);
    DefaultKey("present", "presentCount", 2);
    DefaultKey("absent", "absentCount", 3);
    DefaultKey("faculty", "facultName", 5);
    DefaultKey("term", "termName", 6);
  }

  lemma DefaultKey(field: string, value: string, i: nat)
    requires i < |Config.DefaultFieldMappings| && Config.DefaultFieldMappings[i] == (field, value)
    ensures MappedKey(Config.DefaultFieldMappings, field, value) == value
    ensures MappedKey([], field, value) == value
  {
    Config.DefaultFieldMappingsDistinct();
    Dicts.GetDistinct(Config.DefaultFieldMappings, field, i);
  }

  // -------------------------------------------------------------- detection

  /** The words _looks_like_attendance looks for in the keys of a record. */
  const Keywords: seq<string> := ["present", "absent", "subject", "attendance", "faculty"]

  /** How many keywords occur in some lower-cased key of the record. */
  function KeywordHits(fields: seq<(string, Value)>): (n: nat)
    ensures n <= |Keywords|
  {
    Seqs.Count(Keywords, (w: string) => AnyKeyContains(LoweredKeys(fields), w))
  }

  /** _looks_like_attendance */
  function LooksLikeAttendance(data: Value): (r: bool)
    ensures r ==> data.List? && |data.items| > 0 && data.items[0].Obj?
  {
    data.List? && |data.items| > 0 && data.items[0].Obj? && KeywordHits(data.items[0].fields) >= 2
  }

  /** A payload looks like attendance exactly when it is a non-empty list
      whose first element is an object in whose lower-cased keys two
      different keywords occur. */
  lemma LooksLikeAttendanceIff(data: Value)
    ensures LooksLikeAttendance(data) <==>
      && data.List? && |data.items| > 0 && data.items[0].Obj?
      && (exists i, j :: 0 <= i < |Keywords| && 0 <= j < |Keywords| && i != j
            && AnyKeyContains(LoweredKeys(data.items[0].fields), Keywords[i])
            && AnyKeyContains(LoweredKeys(data.items[0].fields), Keywords[j]))
  {
    if data.List? && |data.items| > 0 && data.items[0].Obj? {
      var keys := LoweredKeys(data.items[0].fields);
      Seqs.CountAtLeastTwo(Keywords, (w: string) => AnyKeyContains(keys, w));
    }
  }
}

=== FILE: seqs.dfy ===
/** Generic searches over sequences: the first element satisfying a predicate,
    how many elements satisfy it, and the keep-or-skip loop that both
    attendance normalisers run over their raw records. */
module Seqs {
  import opened Wrappers

  /** Index of the first element at or after `from` that satisfies `p`. */
  function FirstFrom<T>(s: seq<T>, p: T -> bool, from: nat): (r: Option<nat>)
    requires from <= |s|
    ensures r.None? ==> forall i :: from <= i < |s| ==> !p(s[i])
    ensures r.Some? ==> from <= r.value < |s| && p(s[r.value])
    ensures r.Some? ==> forall i :: from <= i < r.value ==> !p(s[i])
    decreases |s| - from
  {
    if from == |s| then None
    else if p(s[from]) then Some(from)
    else FirstFrom(s, p, from + 1)
  }

  /** Index of the first element of `s` that satisfies `p` (Python's
      "for x in s: if p(x): return ..." loop). */
  function First<T>(s: seq<T>, p: T -> bool): (r: Option<nat>)
    ensures r.None? <==> forall i :: 0 <= i < |s| ==> !p(s[i])
    ensures r.Some? ==> r.value < |s| && p(s[r.value])
    ensures r.Some? ==> forall i :: 0 <= i < r.value ==> !p(s[i])
  {
    FirstFrom(s, p, 0)
  }

  /** Number of elements of `s` that satisfy `p` (Python's
      `sum(1 for x in s if p(x))`). */
  function Count<T>(s: seq<T>, p: T -> bool): (n: nat)
    ensures n <= |s|
  {
    if s == [] then 0
    else Count(s[..|s| - 1], p) + (if p(s[|s| - 1]) then 1 else 0)
  }

  /** A count is positive exactly when some element satisfies the predicate. */
  lemma {:induction false} CountPositive<T>(s: seq<T>, p: T -> bool)
    ensures Count(s, p) > 0 <==> exists i :: 0 <= i < |s| && p(s[i])
  {
    if s != [] {
      var init := s[..|s| - 1];
      CountPositive(init, p);
      if exists i :: 0 <= i < |init| && p(init[i]) {
        var i :| 0 <= i < |init| && p(init[i]);
        assert s[i] == init[i];
      }
      if exists i :: 0 <= i < |s| && p(s[i]) {
        var i :| 0 <= i < |s| && p(s[i]);
        if i < |init| {
          assert init[i] == s[i];
        }
      }
    }
  }

  /** "At least two elements satisfy p" means two distinct positions do. */
  lemma {:induction false} CountAtLeastTwo<T>(s: seq<T>, p: T -> bool)
    ensures Count(s, p) >= 2 <==>
      exists i, j :: 0 <= i < |s| && 0 <= j < |s| && i != j && p(s[i]) && p(s[j])
  {
    if s != [] {
      var init := s[..|s| - 1];
      var last := |s| - 1;
      CountAtLeastTwo(init, p);
      CountPositive(init, p);
      if Count(s, p) >= 2 {
        if p(s[last]) {
          assert Count(init, p) >= 1;
          var i :| 0 <= i < |init| && p(init[i]);
          assert s[i] == init[i];
          assert p(s[i]) && p(s[last]) && i != last;
        } else {
          var i, j :| 0 <= i < |init| && 0 <= j < |init| && i != j && p(init[i]) && p(init[j]);
          assert s[i] == init[i] && s[j] == init[j];
        }
      }
      if exists i, j :: 0 <= i < |s| && 0 <= j < |s| && i != j && p(s[i]) && p(s[j]) {
        var i, j :| 0 <= i < |s| && 0 <= j < |s| && i != j && p(s[i]) && p(s[j]);
        if i < last && j < last {
          assert init[i] == s[i] && init[j] == s[j];
        } else if i == last {
          assert init[j] == s[j];
        } else {
          assert init[i] == s[i];
        }
      }
    }
  }

  /** Applies `f` to every element and keeps the results that are present,
      in input order: the "try: ... append ... except: continue" loop. */
  function FilterMap<A, B>(f: A -> Option<B>, s: seq<A>): (r: seq<B>)
    ensures |r| <= |s|
    ensures forall y :: y in r ==> exists i :: 0 <= i < |s| && f(s[i]) == Some(y)
    ensures forall i :: 0 <= i < |s| && f(s[i]).Some? ==> f(s[i]).value in r
  {
    if s == [] then []
    else
      var rest := FilterMap(f, s[1..]);
      assert forall y :: y in rest ==> exists i :: 0 <= i < |s| && f(s[i]) == Some(y) by {
        forall y | y in rest
          ensures exists i :: 0 <= i < |s| && f(s[i]) == Some(y)
        {
          var i :| 0 <= i < |s[1..]| && f(s[1..][i]) == Some(y);
          assert f(s[i + 1]) == Some(y);
        }
      }
      assert forall i :: 1 <= i < |s| && f(s[i]).Some? ==> f(s[i]).value in rest by {
        forall i | 1 <= i < |s| && f(s[i]).Some?
          ensures f(s[i]).value in rest
        {
          assert s[1..][i - 1] == s[i];
        }
      }
      match f(s[0])
      case Some(y) => [y] + rest
      case None => rest
  }

  /** A single element is kept exactly when `f` maps it to a value. */
  lemma FilterMapSingle<A, B>(f: A -> Option<B>, x: A)
    ensures FilterMap(f, [x]) == (if f(x).Some? then [f(x).value] else [])
  {
    assert [x][1..] == [];
  }

  /** FilterMap distributes over concatenation: survivors keep their order. */
  lemma {:induction false} FilterMapAppend<A, B>(f: A -> Option<B>, a: seq<A>, b: seq<A>)
    ensures FilterMap(f, a + b) == FilterMap(f, a) + FilterMap(f, b)
  {
    if a != [] {
      assert (a + b)[1..] == a[1..] + b;
      FilterMapAppend(f, a[1..], b);
    } else {
      assert a + b == b;
    }
  }

  /** When no element is skipped, the output has one entry per input. */
  lemma {:induction false} FilterMapTotal<A, B>(f: A -> Option<B>, s: seq<A>)
    requires forall i :: 0 <= i < |s| ==> f(s[i]).Some?
    ensures |FilterMap(f, s)| == |s|
    ensures forall i :: 0 <= i < |s| ==> FilterMap(f, s)[i] == f(s[i]).value
  {
    if s != [] {
      FilterMapTotal(f, s[1..]);
    }
  }

  /** `[f(x) for x in s]` */
  function Map<A, B>(f: A -> B, s: seq<A>): (r: seq<B>)
    ensures |r| == |s|
    ensures forall i :: 0 <= i < |s| ==> r[i] == f(s[i])
  {
    seq(|s|, i requires 0 <= i < |s| => f(s[i]))
  }

  /** Mapping one more element appends its image. */
  lemma MapSnoc<A, B>(f: A -> B, s: seq<A>, x: A)
    ensures Map(f, s + [x]) == Map(f, s) + [f(x)]
  {
    var l, r := Map(f, s + [x]), Map(f, s) + [f(x)];
    forall i | 0 <= i < |l|
      ensures l[i] == r[i]
    {
      if i < |s| {
        assert (s + [x])[i] == s[i];
      }
    }
  }
}

=== FILE: text.dfy ===
/** String operations of Python that the attendance core relies on:
    `str.upper`/`str.lower` (ASCII letters only), `str.strip`/`str.rstrip`,
    the `in` substring test, `startswith`, and the decimal conversions of
    `int(str)` and `f"{n}"`. */
module Text {
  import opened Wrappers

  function LowerChar(c: char): char {
    if 'A' <= c <= 'Z' then (c as int + 32) as char else c
  }

  function UpperChar(c: char): char {
    if 'a' <= c <= 'z' then (c as int - 32) as char else c
  }

  /** `s.lower()` on ASCII letters. */
  function Lower(s: string): (r: string)
    ensures |r| == |s|
    ensures forall i :: 0 <= i < |s| ==> r[i] == LowerChar(s[i])
  {
    if s == [] then [] else [LowerChar(s[0])] + Lower(s[1..])
  }

  /** `s.upper()` on ASCII letters. */
  function Upper(s: string): (r: string)
    ensures |r| == |s|
    ensures forall i :: 0 <= i < |s| ==> r[i] == UpperChar(s[i])
  {
    if s == [] then [] else [UpperChar(s[0])] + Upper(s[1..])
  }

  /** Lowering changes nothing in a string without upper-case ASCII letters. */
  lemma LowerOfLowerCase(s: string)
    requires forall i :: 0 <= i < |s| ==> !('A' <= s[i] <= 'Z')
    ensures Lower(s) == s
  {
  }

  /** `s.startswith(p)` */
  predicate StartsWith(s: string, p: string) {
    |p| <= |s| && s[..|p|] == p
  }

  /** `needle in hay` for strings. */
  predicate Contains(hay: string, needle: string)
    decreases |hay|
  {
    StartsWith(hay, needle) || (|hay| > 0 && Contains(hay[1..], needle))
  }

  /** `needle` occurs in `hay` starting at offset `k`. */
  predicate OccursAt(hay: string, needle: string, k: int) {
    0 <= k <= |hay| - |needle| && hay[k..k + |needle|] == needle
  }

  /** The substring test holds exactly when the needle occurs at some offset. */
  lemma {:induction false} ContainsAtOffset(hay: string, needle: string)
    ensures Contains(hay, needle) <==> exists k :: OccursAt(hay, needle, k)
  {
    if Contains(hay, needle) {
      if StartsWith(hay, needle) {
        assert OccursAt(hay, needle, 0);
      } else {
        ContainsAtOffset(hay[1..], needle);
        var k :| OccursAt(hay[1..], needle, k);
        assert hay[k + 1..k + 1 + |needle|] == hay[1..][k..k + |needle|];
        assert OccursAt(hay, needle, k + 1);
      }
    }
    if exists k :: OccursAt(hay, needle, k) {
      var k :| OccursAt(hay, needle, k);
      if k > 0 {
        assert hay[1..][k - 1..k - 1 + |needle|] == hay[k..k + |needle|];
        assert OccursAt(hay[1..], needle, k - 1);
        ContainsAtOffset(hay[1..], needle);
      } else {
        assert StartsWith(hay, needle);
      }
    }
  }

  /** Every character of a contained needle occurs in the haystack. */
  lemma ContainsChar(hay: string, needle: string, j: nat)
    requires Contains(hay, needle) && j < |needle|
    ensures needle[j] in hay
  {
    ContainsAtOffset(hay, needle);
    var k :| OccursAt(hay, needle, k);
    assert hay[k..k + |needle|][j] == hay[k + j];
  }

  /** Every string contains the empty string and itself. */
  lemma ContainsTrivial(s: string)
    ensures Contains(s, "") && Contains(s, s)
  {
  }

  /** Python's whitespace for `str.strip()` and `int()`: the characters for
      which `str.isspace()` holds. */
  predicate IsSpace(c: char) {
    var n := c as int;
    || 9 <= n <= 13 || 28 <= n <= 32 || n == 0x85 || n == 0xA0 || n == 0x1680
    || 0x2000 <= n <= 0x200A || n == 0x2028 || n == 0x2029 || n == 0x202F
    || n == 0x205F || n == 0x3000
  }

  /** `s.lstrip()` */
  function LStrip(s: string): (r: string)
    ensures |r| <= |s| && r == s[|s| - |r|..]
    ensures r == [] || !IsSpace(r[0])
    ensures forall i :: 0 <= i < |s| - |r| ==> IsSpace(s[i])
  {
    if s != [] && IsSpace(s[0]) then LStrip(s[1..]) else s
  }

  /** `s.rstrip()` */
  function RStrip(s: string): (r: string)
    ensures |r| <= |s| && r == s[..|r|]
    ensures r == [] || !IsSpace(r[|r| - 1])
    ensures forall i :: |r| <= i < |s| ==> IsSpace(s[i])
  {
    if s != [] && IsSpace(s[|s| - 1]) then RStrip(s[..|s| - 1]) else s
  }

  /** `s[i..j]` is `s` with only whitespace cut from either end. */
  predicate SpaceOutside(s: string, i: int, j: int) {
    && 0 <= i <= j <= |s|
    && (forall k :: 0 <= k < i ==> IsSpace(s[k]))
    && (forall k :: j <= k < |s| ==> IsSpace(s[k]))
  }

  /** `s.strip()`: no whitespace is left at either end, and what was removed
      is whitespace only. */
  function Strip(s: string): (r: string)
    ensures |r| <= |s|
    ensures r == [] || (!IsSpace(r[0]) && !IsSpace(r[|r| - 1]))
    ensures exists i, j :: SpaceOutside(s, i, j) && r == s[i..j]
  {
    var t := RStrip(s);
    var r := LStrip(t);
    StripSlice(s, t, r);
    assert SpaceOutside(s, |t| - |r|, |t|) && r == s[|t| - |r|..|t|];
    r
  }

  /** What `lstrip` cuts from the front of `rstrip`'s result is leading
      whitespace of the input, and what is left is a slice of it. */
  lemma StripSlice(s: string, t: string, r: string)
    requires t == RStrip(s) && r == LStrip(t)
    ensures r == s[|t| - |r|..|t|]
    ensures forall k :: 0 <= k < |t| - |r| ==> IsSpace(s[k])
  {
    assert |r| <= |t| <= |s|;
    assert t == s[..|t|];
    assert r == t[|t| - |r|..];
    assert s[|t| - |r|..|t|] == t[|t| - |r|..];
    forall k | 0 <= k < |t| - |r|
      ensures IsSpace(s[k])
    {
      assert s[k] == t[k];
    }
  }

  /** A string with no whitespace at its ends is its own strip. */
  lemma StripNoSpaceEnds(s: string)
    requires s == [] || (!IsSpace(s[0]) && !IsSpace(s[|s| - 1]))
    ensures Strip(s) == s
  {
  }

  /** `s.rstrip(c)` for a single character `c`. */
  function RStripChar(s: string, c: char): (r: string)
    ensures |r| <= |s| && r == s[..|r|]
    ensures r == [] || r[|r| - 1] != c
    ensures forall i :: |r| <= i < |s| ==> s[i] == c
  {
    if s != [] && s[|s| - 1] == c then RStripChar(s[..|s| - 1], c) else s
  }

  predicate IsDigit(c: char) {
    '0' <= c <= '9'
  }

  predicate AllDigits(s: string) {
    forall i :: 0 <= i < |s| ==> IsDigit(s[i])
  }

  function DigitChar(d: int): (c: char)
    requires 0 <= d < 10
    ensures IsDigit(c) && c as int - '0' as int == d
  {
    ('0' as int + d) as char
  }

  /** Decimal digits of a natural number, most significant first. */
  function NatDigits(n: nat): (r: string)
    ensures |r| >= 1 && AllDigits(r)
  {
    if n < 10 then [DigitChar(n)] else NatDigits(n / 10) + [DigitChar(n % 10)]
  }

  /** `f"{n}"` / `str(n)` for an integer. */
  function Decimal(n: int): (r: string)
    ensures |r| >= 1
  {
    if n < 0 then "-" + NatDigits(-n) else NatDigits(n)
  }

  /** Value of a string of decimal digits. */
  function DigitsValue(s: string): nat
    requires AllDigits(s)
  {
    if s == [] then 0
    else DigitsValue(s[..|s| - 1]) * 10 + (s[|s| - 1] as int - '0' as int)
  }

  /** An optional sign followed by at least one decimal digit, and nothing
      else. */
  function SignedDigits(t: string): Option<int> {
    var signed := |t| > 0 && (t[0] == '+' || t[0] == '-');
    var body := if signed then t[1..] else t;
    if body != [] && AllDigits(body) then
      var v: int := DigitsValue(body);
      Some(if signed && t[0] == '-' then -v else v)
    else
      None
  }

  /** `int(s)` for a string: whitespace at either end is ignored; anything but
      an optionally signed run of decimal digits raises (None). */
  function ParseInt(s: string): Option<int> {
    SignedDigits(Strip(s))
  }

  lemma {:induction false} DigitsValueOfNatDigits(n: nat)
    ensures DigitsValue(NatDigits(n)) == n
  {
    if n >= 10 {
      var d := NatDigits(n / 10);
      var r := d + [DigitChar(n % 10)];
      assert r[..|r| - 1] == d;
      DigitsValueOfNatDigits(n / 10);
    }
  }

  lemma SignedDigitsOfDecimal(n: int)
    ensures SignedDigits(Decimal(n)) == Some(n)
  {
    var s := Decimal(n);
    if n < 0 {
      assert s[1..] == NatDigits(-n);
      DigitsValueOfNatDigits(-n);
    } else {
      DigitsValueOfNatDigits(n);
    }
  }

  /** Printing an integer and parsing it back gives the same integer. */
  lemma ParseDecimal(n: int)
    ensures ParseInt(Decimal(n)) == Some(n)
  {
    var s := Decimal(n);
    assert !IsSpace(s[0]) && !IsSpace(s[|s| - 1]) by {
      var d := NatDigits(if n < 0 then -n else n);
      assert s[|s| - 1] == d[|d| - 1];
      assert IsDigit(s[|s| - 1]);
      assert s[0] == '-' || IsDigit(s[0]);
    }
    StripNoSpaceEnds(s);
    SignedDigitsOfDecimal(n);
  }
}

=== FILE: wrappers.dfy ===
/** The Option type used for Python's "value or None" and for operations that
    may raise: None stands for the missing value or the raised exception. */
module Wrappers {

  datatype Option<+T> = None | Some(value: T) {

    /** Returns the encapsulated value, or `default` when there is none. */
    function GetOr(default: T): T {
      match this
      case Some(v) => v
      case None => default
    }
  }
}
